=== FILE: README.md ===
# ChatGPT chat groups: a Dafny model of the panel's state logic

content.js is the content script of a browser extension that adds a side
panel to ChatGPT. In the panel, saved chats are kept in named folders
("groups"). The panel persists one document, `{folders, order, collapsed,
folderColors}`. Every button, dialog and drag-and-drop handler reads that
document, changes it and writes it back.

This project models that document and every handler that changes it. Each
handler is a pure function from the old state to the new one. The model
covers:

- the URL key `normalizeUrl`, which every duplicate test compares by;
- the title cleaners `norm` and `cutAfterSep`;
- the saved-page lookup `findSavedPage`;
- folder create, rename, clear, delete, collapse and reorder, and "Clear all";
- the "Add chat" picker's move-or-insert, and its harvest and filter of the sidebar links;
- the filtered view: `render`'s filter, `idxFromFiltered` and `getDropIndexFull`;
- chat drops inside the panel and link drops from outside;
- the per-item delete button;
- export and import.

Modules, in dependency order:

| module | file | covers |
|---|---|---|
| `Wrappers` | wrappers.dfy | `Option`, `Result` |
| `Seqs` | seqs.dfy | `splice` (clamping included), `findIndex`, `indexOf`, `filter`, counting |
| `Text` | text.dfy | `trim`, the `\s` class, ASCII `toLowerCase`, `includes`, `norm`, `cutAfterSep`, `isValidHex` |
| `Urls` | urls.dfy | `normalizeUrl`, with the URL parser as a parameter |
| `Groups` | groups.dfy | the document, its seed, well-formedness, `findSavedPage`, key counts and entry multisets |
| `Folders` | folders.dfy | the folder dialogs and buttons, and the folder reorder drop |
| `View` | view.dfy | `render`'s filter, entry identity, `idxFromFiltered`, `getDropIndexFull` |
| `ChatDrop` | chatdrop.dfy | the internal chat drop on a folder list |
| `Pages` | pages.dfy | `moveOrInsertPageByUrl`, the header drop, the external-link drop, the per-item delete |
| `Import` | import.dfy | the export document and the import check |
| `Sidebar` | sidebar.dfy | `getSidebarChats` and `filterChatsBySubstring` |

Conventions:

- An absent or falsy string field of an entry is `""`.
- The browser's `new URL(u)` is a parameter `p: string -> Option<UrlRecord>`, where `None` means the constructor throws.
- The clock value `nowTs()` and the pastel colour a dialog drew are parameters.
- The half of a card the mouse is over is a parameter. So is the marker slot and the `fullIndex` values of the candidate items.
- An entry object is identified by the array slot it was loaded into. `idxFromFiltered` compares objects with `===`, not by content.
- "Well formed" means that `order` lists exactly the keys of `folders`, with no name twice.

## Model

| member | source | states |
|---|---|---|
| Groups.Seed | content.js:21-35 | the document used when storage is empty is well formed, and both of its folders are empty |
| Groups.FindSavedPage | content.js:1070-1083 | a result is the lowest matching index in the first folder, in display order, that holds a page with the URL's key; the lookup fails exactly when no listed folder holds one |
| Groups.FindFrom | content.js:1072-1081 | the scan from position k finds nothing exactly when no folder from k on holds the key; a hit is the first matching entry of the first folder from k that holds one |
| Groups.FindFromFirst | content.js:1070-1083 | the hit of the scan from the start is the first saved location in the sense of `IsFirstSaved` |
| Urls.NormalizeParsed | content.js:105-115 | on a URL with a special scheme (http, https, ws, wss, ftp, or file with a host) the key is the https origin (legacy host renamed, port 443 dropped) followed by the path less at most one trailing slash; on any other URL the scheme stays, the origin is `null` (for `blob:`, that of the http or https URL its path spells) and an opaque path is kept whole; query and fragment never appear |
| Urls.SameChatSameKey | content.js:105-115 | two links with special schemes that differ only in which special scheme, query, fragment, legacy host name, a default port or one trailing slash get the same key |
| Urls.OpaqueOriginKeyDiffers | content.js:107-115 | a link whose scheme the protocol setter refuses (other than `blob:`) never shares a key with a link it accepts, whatever their hosts and paths |
| Urls.MailtoKey | content.js:105-115 | `mailto:a@b.c` keeps its opaque path and has an opaque origin, so its key is `nulla@b.c` |
| Urls.CanonicalTwice | content.js:107-114 | running the setters again changes scheme, host, port and an opaque path no further, and changes nothing at all exactly when the path step does not apply or the path does not end in `//` |
| Urls.NormalizeIdempotentIff | content.js:105-119 | normalising a parsed key again is a no-op exactly when the path is opaque or the original path does not end in `//` |
| Urls.DoubleSlashNotIdempotent | content.js:112-114 | for `https://chatgpt.com/c/1//` the key is not a fixed point of the normaliser |
| Urls.Fallback | content.js:117 | the key of an unparsable string is the prefix before its first `#` or `?`, less only its trailing slashes: the key has no `#`, `?` or trailing slash, and every character between the key and that first `#` or `?` (or the end) is a `/` |
| Urls.FallbackIdempotent | content.js:117 | applying the fallback cut twice is the same as once |
| Urls.NormalizeFallbackIdempotent | content.js:116-118 | on strings the parser rejects, normalising twice is normalising once |
| Urls.FallbackKeepsClean | content.js:117 | a string with no `#`, no `?` and no trailing slash is its own fallback key |
| Text.Trim | content.js:1130 | the result neither starts nor ends with white space, and it is what remains after dropping the leading and then the trailing white space |
| Text.TrimStart | content.js:1130 | the result is a suffix of the input; what was dropped is all white space; the result does not start with white space |
| Text.TrimEnd | content.js:1130 | the result is a prefix of the input; what was dropped is all white space; the result does not end with white space |
| Text.Lower | content.js:1130 | lower-casing keeps the length and maps each character on its own |
| Text.TakeUntil | content.js:117 | `split(c)[0]` is the longest prefix without `c`, and it stops at the first `c` |
| Text.StripTrailing | content.js:117 | the trailing-slash strip leaves a prefix that does not end in the character, and drops only that character |
| Text.Collapse | content.js:122 | after replacing white-space runs, every white-space character is a plain space and no two are adjacent; the first character keeps its class |
| Text.Norm | content.js:122 | `norm` yields a normal string (no white space at either end, each inner white-space run a single plain space) with the same non-space characters as its input |
| Text.NormIdempotent | content.js:122 | `norm` applied twice is `norm` applied once |
| Text.TrimKeepsVisible | content.js:122 | trimming removes only white space |
| Text.FirstSep | content.js:125 | the separator match found is the leftmost one at or after the start point; none is found only when none exists |
| Text.CutAtSep | content.js:124-126 | the cut is a prefix without any separator; it ends where the first separator starts, and it is the whole string when there is none |
| Text.CutAtSepNormal | content.js:124-126 | cutting a normal string leaves a normal string |
| Text.CutAfterSepIdempotent | content.js:123-127 | the cleaned title is a normal, separator-free prefix of `norm(s)`; `norm` leaves it alone, and cleaning it again changes nothing |
| Folders.ChooseColor | content.js:366-367 | the colour kept is the trimmed input when that is a valid hex colour, otherwise the fallback; a valid fallback always gives a valid colour |
| Folders.CreateFolder | content.js:500-510 | a blank name fails with EmptyName; a taken name fails with DuplicateName, and inherited object member names count as taken; success adds one empty folder at the end of the order with the chosen colour, keeps the state well formed and loses no entry |
| Folders.CreateKeepsWellFormed | content.js:508-509 | adding a new empty folder at the end of the order keeps the state well formed |
| Folders.CreateKeepsEntries | content.js:508-509 | a new empty folder adds no entry to the document |
| Folders.ReplaceName | content.js:384 | the order keeps its length and only the slots holding the old name change |
| Folders.RenameFolder | content.js:364-389 | blank and taken names are rejected as in the dialog; success moves the entries under the new name in the same slot of the order, keeps every other folder, sets the new colour, and keeps the state well formed; a name listed in the order without a folder is renamed in the order only |
| Folders.RenamedMoves | content.js:381-386 | a real rename puts the entries under the new key (a name without a folder leaves the folders as they were), removes the old key, leaves the other folders alone and sets the colour |
| Folders.RenameKeepsWellFormed | content.js:381-384 | renaming to a free name keeps the order duplicate-free and in step with the folder keys |
| Folders.ReplaceNameDistinct | content.js:384 | replacing a name by one not listed keeps the order duplicate-free |
| Folders.ReplaceNameKeeps | content.js:384 | after the replacement the new name and every other listed name are still listed |
| Folders.RenameFolderIsRenamed | content.js:369-386 | a non-blank, changed and free name commits the rename with the colour the dialog chose |
| Folders.RenameBackRestores | content.js:364-389 | renaming a folder and then renaming it back succeeds and restores the folders and the order exactly |
| Folders.RenamedBack | content.js:381-386 | renaming to a fresh name and back restores the folders and the order |
| Folders.ClearFolder | content.js:1327 | clearing empties only that folder and keeps the state well formed; the document loses exactly that folder's entries |
| Folders.Without | content.js:1343 | filtering the order drops the name and keeps every other name |
| Folders.WithoutRemovesOne | content.js:1343 | in a duplicate-free order the filter removes exactly the one slot that holds the name |
| Folders.DeleteFolder | content.js:1342-1343 | the folder leaves both `folders` and `order`, the other folders are unchanged, the state stays well formed, and deleting an empty folder loses no entry |
| Folders.DeleteKeepsEntries | content.js:1342-1343 | deleting an empty folder of a well-formed state keeps every entry |
| Folders.EntriesInRemoveAt | content.js:1343 | taking a name out of the order drops exactly that folder's entries from the total |
| Folders.FolderAction | content.js:1313-1347 | the card reads a missing folder as an empty list; without confirmation nothing changes; a folder with entries is cleared, kept, and loses exactly its entries; an empty or missing folder is deleted from `folders` and `order` with every other name kept; so the button never loses an entry |
| Folders.ClearAll | content.js:1671-1684 | once confirmed, the document has no folders, no order, no collapsed flags and no colours; it is well formed, holds no entry and is not the seed; without confirmation nothing changes |
| Folders.ToggleCollapsed | content.js:1237-1239 | the button flips the collapsed state of its folder only |
| Folders.ToggleTwice | content.js:1239 | toggling twice shows every folder as before |
| Folders.FolderDrop | content.js:1205-1220 | a folder drop changes only the order, and the new order is a permutation of the old |
| Folders.DropSlot | content.js:1211-1214 | the slot is the target card's own index exactly when the drop is on its upper half, and the next index when it is on its lower half |
| Folders.FolderDropKeepsWellFormed | content.js:1218-1220 | the folder drop keeps the state well formed |
| Folders.Reorder | content.js:1216-1220 | taking a name out and putting it back keeps the same names with the same multiplicities |
| Folders.FolderDropIsReorder | content.js:1210-1220 | the drop's new order is the reorder from the dragged name's index to the chosen slot |
| Folders.FolderDropNoOp | content.js:1216 | the drop leaves the order unchanged exactly when the slot is the dragged folder's own slot or the one after it |
| Folders.FolderDropMoves | content.js:1218-1220 | when the order changes, the dragged name sits at the adjusted slot and all other names keep their relative order |
| Folders.ReorderMoves | content.js:1216-1220 | the reorder is a no-op exactly for the two neighbouring slots; otherwise it puts the name at the adjusted slot and keeps the others in order |
| Folders.DistinctPermutation | content.js:1218-1220 | a permutation of a duplicate-free order lists the same names and is duplicate-free |
| View.Visible | content.js:1529-1531 | the visible items are exactly the entries whose lower-cased text or title contains the query; with no query, all entries |
| View.VisibleIsSubsequence | content.js:1529-1531 | the visible list is the order-preserving filter of the folder by the query, also for the empty query |
| View.EmptyQueryMatches | content.js:1530 | every entry contains the empty query |
| View.Load | content.js:1528 | each loaded entry object is identified by its slot |
| View.IdxFromFiltered | content.js:1618-1623 | with no query the visible index is returned; otherwise the index of the first full-array slot holding that very object, or the visible index when the object is absent |
| View.IdxFromFilteredFindsEntry | content.js:1547 | mapping visible position i back gives the full index of the i-th matching entry; that slot holds the shown entry, it matches, and exactly i matching entries come before it, even when other entries have the same text |
| View.DropIndexFull | content.js:1365-1392 | the slot before a candidate item gives exactly that item's full index, so hidden entries above it stay above the drop; with consistent fullIndex values the index is within the list, after every candidate above the marker and at or before every candidate below it; an empty view drops at the end |
| View.DropIndexAfterLast | content.js:1387-1389 | the slot after the last candidate lands right after it, which is the end of the list only when that candidate is the last entry |
| ChatDrop.Reinsert | content.js:1474-1481 | a same-folder move changes only that folder, keeps its entries as a multiset, puts the moved entry at the clamped index, and keeps the state well formed and every entry |
| ChatDrop.ReinsertKeepsEntries | content.js:1474-1481 | replacing one folder's list by a permutation of it keeps the document's entries |
| ChatDrop.Transfer | content.js:1474-1483 | a cross-folder move takes the entry out of its folder and splices it in at the clamped index of the target; the other folders, the well-formedness and every entry are kept |
| ChatDrop.TransferKeepsEntries | content.js:1474-1483 | taking an entry out of one folder and inserting it into another keeps the document's entries |
| ChatDrop.ChatDrop | content.js:1459-1484 | a drop on a collapsed list or from an index that no longer exists changes nothing; otherwise the entry moves as in Reinsert or Transfer; only the two folders change and no entry is lost |
| ChatDrop.ChatDropIntended | content.js:1479-1481 | the corrected drop has the same frame properties as the drop as written |
| ChatDrop.MovePlaces | content.js:1474-1481 | after moving one entry every other entry sits at its shifted place, on the same side of the moved entry as before |
| ChatDrop.SameFolderIndexInBounds | content.js:1480 | with consistent fullIndex values, the as-written same-folder index needs no clamping |
| ChatDrop.SameFolderIndexSeparates | content.js:1480 | the as-written index separates the candidates above and below the marker, except at the slot after a last candidate that is the folder's final entry |
| ChatDrop.IntendedIndexSeparates | content.js:1480 | the intended index separates the candidates at every slot, and dropping after the last entry lands at the very end |
| ChatDrop.ChatDropSeparates | content.js:1478-1481 | outside that exception, a same-folder drop as written puts the entry at the index, keeps each candidate on its side of it, and leaves the candidate right below the marker directly after the entry |
| ChatDrop.ChatDropIntendedSeparates | content.js:1479-1481 | the corrected same-folder drop separates the candidates at every slot, leaves the candidate right below the marker directly after the entry, and makes an end drop last |
| ChatDrop.ChatDropInPlace | content.js:1479-1481 | dropping an entry back onto its own index changes nothing |
| ChatDrop.CrossDropSeparates | content.js:1482-1483 | a drop into another folder splices the entry in at the translated index and changes nothing else in the list; that index is the full index of the candidate right below the marker, which follows the entry directly, while candidates and hidden entries above stay above |
| ChatDrop.SameFolderDropList | content.js:1474-1481 | a same-folder drop leaves the list with the entry removed and spliced back at the as-written index; for the corrected drop, at the intended index |
| ChatDrop.EndDropLandsSecondToLast | content.js:1474-1481 | as written, dragging the first of [a, b, c] below the last gives [b, a, c] |
| ChatDrop.EndDropIntendedLandsLast | content.js:1479-1481 | the corrected drop of the same gesture gives [b, c, a] |
| Pages.NewPageKey | content.js:1111-1118 | a new page entry is compared by the key it was saved under |
| Pages.FindNoneIffZero | content.js:1070-1083 | the lookup fails exactly when no page with the key is saved |
| Pages.FoundExists | content.js:1096 | the location found names a page with the key in an existing folder |
| Pages.TakeOut | content.js:1096 | taking an entry out changes only that folder, which loses exactly that entry, and keeps the state well formed |
| Pages.TakeOutEffect | content.js:1096 | taking an entry out removes exactly that entry from the document, lowers the count of its key by one, and keeps every folder free of duplicate keys |
| Pages.PlaceIfAbsent | content.js:1098-1103 | a target that already holds the key is left as it is; otherwise only the target changes, gaining the item at the clamped splice index; afterwards the target holds the key |
| Pages.PlaceEffect | content.js:1098-1103 | placing into a target without the key adds exactly one entry and one of the key, and keeps keys unique within folders |
| Pages.InsertKeepsUnique | content.js:1103 | inserting a page whose key the folder lacks keeps that folder's keys unique |
| Pages.RemoveKeepsUnique | content.js:1096 | removing an entry keeps a folder's keys unique |
| Pages.MoveOrInsert | content.js:1086-1124 | an empty or unknown target changes nothing; otherwise only the target and the folder where the page was found can change, and the state stays well formed |
| Pages.MoveOrInsertSavesKey | content.js:1086-1120 | afterwards the target holds the page's key; a target that held it is unchanged; otherwise the target only grows at its end |
| Pages.MoveOrInsertCreates | content.js:1104-1119 | a page saved nowhere becomes one new entry at the end of the target, titled "Untitled" when no title is given, and its key count goes from zero to one |
| Pages.MoveOrInsertMoves | content.js:1095-1103 | a page saved first in another folder moves, re-stamped, to the end of a target that lacks its key; its key count stays the same |
| Pages.MoveOrInsertLoses | content.js:1095-1103 | when the target already holds the key, the page found elsewhere is taken out and put nowhere, and its key count drops by one |
| Pages.MoveOrInsertAlreadyThere | content.js:1093 | a page found first in the target leaves the document unchanged |
| Pages.ExtDrop | content.js:1459-1523 | a drop on a collapsed list or without a link changes nothing; otherwise only the target and the folder where the link was found can change, the target ends up holding the link's key, and the state stays well formed |
| Pages.ExtDropCreates | content.js:1504-1519 | dropping a link never saved splices one new entry with the resolved title into the target at min(drop index, length) and changes no other folder; the key count goes from zero to one |
| Pages.ExtDropMoves | content.js:1504-1519 | dropping a saved link takes its entry object out unchanged; when the shortened target lacks the key, that entry is spliced in at min(drop index, shortened length), no other folder changes and every entry is kept; otherwise the entry is lost and the key count drops by one; keys stay unique within folders |
| Pages.ExtDropRepositions | content.js:1504-1519 | a link saved first in the target itself is re-positioned: taken out and spliced back at the drop index of the shortened list, whenever no other entry of the folder has its key, which unique keys guarantee |
| Pages.HeaderDrop | content.js:1156-1167 | the header drop is ignored while a panel chat is being dragged or when there is no link; otherwise it is the picker's move-or-insert into that folder |
| Pages.HeaderDropSavesKey | content.js:1156-1167 | after a header drop on an existing folder, that folder holds the link's key |
| Pages.DeleteShown | content.js:1600-1606 | the delete button removes one entry of its folder and changes nothing else |
| Pages.DeleteShownRemovesIt | content.js:1600-1602 | the removed entry is the item the button belongs to: the folder becomes its list without the entry at the i-th position matching the query, so hidden and shown entries keep their order; the visible list loses exactly its i-th item, even when other entries show the same text, and the document loses that one entry |
| Import.ImportFile | content.js:1652-1668 | no file means nothing happens; a parsed document that passes the check is stored as it is; anything else is "Invalid file format." |
| Import.AcceptsExactly | content.js:1658 | a document is accepted exactly when it is an object whose `folders` and `order` members exist and are not null, false, 0 or "" |
| Import.Export | content.js:1640-1642 | the export is an object with exactly the four state members, and reading it back as a state gives exactly the state exported |
| Import.ExportThenImport | content.js:1642-1658 | importing an exported file stores the exported document, even for a state with no folders |
| Import.ExportListsFolders | content.js:1642 | a well-formed state exports folder keys and order names that are both exactly its folders |
| Import.ImportIsShallow | content.js:1657-1663 | the check accepts a document whose order names a folder it lacks, and one whose members are not even collections; both are stored |
| Import.ImportRejects | content.js:1652-1668 | null, an array, a missing `order`, an empty `order` string and unparsable text are all invalid |
| Sidebar.ChatOfTexts | content.js:146-162 | the title is the raw title cut at its first separator; the description is cut the same way and becomes "" when it equals the title; both are whitespace-normal |
| Sidebar.Records | content.js:140-165 | there is one record per anchor, in document order |
| Sidebar.HarvestChats | content.js:136-173 | the picker's list is the reference harvest of the anchors' records; it has no more chats than anchors and no two chats with the same key |
| Sidebar.Dedup | content.js:164-170 | the loop with its `seen` set computes the reference harvest |
| Sidebar.HarvestStep | content.js:164-170 | one record is skipped when unusable or already seen; otherwise it is kept and its key becomes seen |
| Sidebar.HarvestShape | content.js:164-170 | the harvest keeps no unusable record, no key already seen and no key twice, and it is no longer than its input |
| Sidebar.HarvestKeepsFirst | content.js:164-170 | the first usable record of every unseen key is kept |
| Sidebar.HarvestOnlyFirsts | content.js:164-170 | every kept record is the first usable record of its key |
| Sidebar.HarvestChatsFirsts | content.js:136-173 | a chat is listed exactly when it is the record of the first usable anchor of its key |
| Sidebar.FilterChatsBySubstring | content.js:190-198 | a blank query offers every harvested chat; otherwise exactly the harvested chats whose lower-cased title or description contains the query, in harvest order |
| Sidebar.FilterChatsIdempotent | content.js:190-198 | filtering the filtered list again by the same query changes nothing |
| Seqs.SpliceStart | content.js:1483 | a negative splice start counts back from the end, never below 0; a start past the end becomes the end |
| Seqs.FindIndex | content.js:1621 | `findIndex` returns -1 exactly when nothing matches; otherwise it returns the first matching index |
| Seqs.FilterRemoveAt | content.js:1600-1602 | removing the entry at the i-th kept position removes the i-th element of the filtered list and nothing else |
| Seqs.PositionsCount | content.js:1547 | the k-th kept position has exactly k kept elements before it |

## Left out

- Storage, the DOM, timers, dialogs and alerts are not modelled. A handler's write to storage and the re-read are treated as one state change. Cancelling a dialog is the `confirmed` flag.
- Mouse geometry is not modelled. The half of a folder card and the marker slot are parameters.
- Colour maths is not modelled: `getContrastColor`, `hslToHex`, `getRandomPastelColor`, and the colour-picker input of a folder header.
- `fmtDate`, `getCurrentCanonicalUrl`, the open/closed panel flag and the URL watcher are not modelled. They only affect display.
- `extractUrlFromDt` and `getConversationTitleFallback` are not modelled. The drop handlers receive the link and the resolved title as parameters.
- The sidebar harvest does not model the DOM attribute chain for a title, or resolving a relative `href`. Each anchor arrives with its resolved `href` and its raw strings.
- Sidebar.HarvestChats builds each anchor's record before the skip tests, where the source builds it inside the loop. Building a record has no effect, so the result is the same.
- The WHATWG URL parser is a parameter. Idempotence of the key is proved for a parser that reads the key back as the canonical record.
- Urls.Normalize: a `file:` URL without a host gets the origin `null`, while the WHATWG URL standard leaves a file origin to the browser. A `blob:` URL takes the origin of the http or https URL its path spells; a blob over a file URL and the origin of a registered blob entry are not modelled.
- Text.Lower: only ASCII letters are lower-cased. Full Unicode case mapping is not modelled.
- `JSON.parse` and `JSON.stringify` text is not modelled. Numbers are integers. Export is the document it would serialise, and the import handler receives the parsed value.
- Import.Export always writes all four members. A stored document that lacks `collapsed` or `folderColors` would export without them.
- Import.ImportFile: the alerts are not modelled. A document that passes the check is stored before `render` runs. If `render` then fails, as it does on `{"folders": 1, "order": true}` at `s.order.forEach`, the user sees "Invalid file format." although the document has replaced the state. The outcome `Imported` records the storage, not the message.
- Null array slots and `NaN` indexes are not modelled. An entry's `type` is a string field.
- ChatDrop.ChatDrop takes `fromIndex` as a natural number. A negative index from a tampered drag is not modelled.
- ChatDrop.ChatDrop requires the target folder to exist. For a name listed in `order` without a folder, the source splices the entry out of the in-memory state and then throws at `dst.splice`; the entry is then missing from the state that later saves write back. That path is not modelled.
- Pages.ExtDrop requires the target folder to exist. For a name listed in `order` without a folder, the source throws at `dst.some`, after a saved entry has already been taken out of the in-memory state. That path is not modelled.
- Folders.RenameFolder: renaming a name listed in `order` without a folder stores `folders[newName] = undefined`. Serialising the document drops that member, so the model leaves the folders as they were.
- Folders.FolderDropNoOp and Folders.FolderDropMoves require a duplicate-free order. With duplicates, `indexOf` picks the first copy and the claim about the moved name does not apply.
- Folders.DeleteFolder leaves the folder's `collapsed` and `folderColors` keys behind, as the source does. Folders.RenameFolder does not carry `collapsed` over to the new name, as the source does not.
- Pages.ExtDrop returns the in-memory state when a saved link is dropped on a folder that already holds its key. The source has already taken the saved entry out of the shared state object and does not write it back at that moment.
- Pages.DeleteShown: a click on a panel that no longer matches the state is not modelled. The external drop of a saved link onto a folder that already holds its key, and the cross-folder moves onto a name listed in `order` without a folder (internal and external), take the entry out of the shared state object without re-rendering. A later Delete on that stale panel goes through `idxFromFiltered` on the shortened array: with a blank query it removes the entry now at the clicked position (or nothing past the end), otherwise the object is not found and the visible index is used, so an unrelated entry can go. The model covers only a panel rendered from the current state, where the clicked object is always in the full array.

## Findings

| source | as written | input that shows it | evidently intended | confidence | as-written member | corrected member |
|---|---|---|---|---|---|---|
| content.js:1474-1481 | in a drop within one folder, the entry is spliced out before `getDropIndexFull` runs; for the slot after the last item, that function clamps to the already shortened length (content.js:1387-1389), and the index is then decremented again because the entry came from above | folder [a, b, c], drag a and drop it below c: the result is [b, a, c] | the dragged entry ends up last: [b, c, a] | not executed | ChatDrop.EndDropLandsSecondToLast | ChatDrop.EndDropIntendedLandsLast |

=== FILE: chatdrop.dfy ===
/** The internal chat drop on a folder list (`ul` drop handler, internal
    branch): the dragged entry is spliced out of its folder and spliced into
    the target folder at the index `getDropIndexFull` yields. */
module ChatDrop {
  import opened Seqs
  import opened Groups
  import opened Folders
  import opened View

  /** The folder list after moving its entry at `from` to index `ins` of the
      shortened list (`splice(from, 1)` then `splice(ins, 0, moved)`). */
  function Reinsert(s: State, folder: string, from: nat, ins: int): (r: State)
    requires folder in s.folders && from < |s.folders[folder]|
    ensures r.order == s.order && r.collapsed == s.collapsed && r.folderColors == s.folderColors
    ensures r.folders.Keys == s.folders.Keys
    ensures forall n :: n in s.folders && n != folder ==> r.folders[n] == s.folders[n]
    ensures multiset(r.folders[folder]) == multiset(s.folders[folder])
    ensures |r.folders[folder]| == |s.folders[folder]|
    ensures r.folders[folder][SpliceStart(|s.folders[folder]| - 1, ins)] == s.folders[folder][from]
    ensures WellFormed(s) ==> WellFormed(r) && AllEntries(r) == AllEntries(s)
  {
    var src := s.folders[folder];
    var ys := SpliceInsert(RemoveAt(src, from), ins, src[from]);
    var r := s.(folders := s.folders[folder := ys]);
    ReinsertKeepsEntries(s, folder, ys);
    r
  }

  lemma ReinsertKeepsEntries(s: State, folder: string, ys: seq<Entry>)
    requires folder in s.folders && multiset(ys) == multiset(s.folders[folder])
    ensures WellFormed(s) ==> AllEntries(s.(folders := s.folders[folder := ys])) == AllEntries(s)
  {
    if WellFormed(s) {
      EntriesInUpdate(s.order, s.folders, folder, ys);
      Cancel(AllEntries(s.(folders := s.folders[folder := ys])), AllEntries(s), multiset(ys));
    }
  }

  /** Moving the entry at `from` of one folder to index `ins` of another. */
  function Transfer(s: State, fromFolder: string, from: nat, toFolder: string, ins: int): (r: State)
    requires fromFolder in s.folders && toFolder in s.folders && fromFolder != toFolder
    requires from < |s.folders[fromFolder]|
    ensures r.order == s.order && r.collapsed == s.collapsed && r.folderColors == s.folderColors
    ensures r.folders.Keys == s.folders.Keys
    ensures forall n :: n in s.folders && n != fromFolder && n != toFolder ==> r.folders[n] == s.folders[n]
    ensures r.folders[fromFolder] == RemoveAt(s.folders[fromFolder], from)
    ensures |r.folders[toFolder]| == |s.folders[toFolder]| + 1
    ensures r.folders[toFolder][SpliceStart(|s.folders[toFolder]|, ins)] == s.folders[fromFolder][from]
    ensures WellFormed(s) ==> WellFormed(r) && AllEntries(r) == AllEntries(s)
  {
    var src := s.folders[fromFolder];
    var dst := s.folders[toFolder];
    var moved := src[from];
    var f1 := s.folders[fromFolder := RemoveAt(src, from)];
    var r := s.(folders := f1[toFolder := SpliceInsert(dst, ins, moved)]);
    TransferKeepsEntries(s, fromFolder, from, toFolder, ins);
    r
  }

  lemma TransferKeepsEntries(s: State, fromFolder: string, from: nat, toFolder: string, ins: int)
    requires fromFolder in s.folders && toFolder in s.folders && fromFolder != toFolder
    requires from < |s.folders[fromFolder]|
    ensures var src := s.folders[fromFolder];
            var f1 := s.folders[fromFolder := RemoveAt(src, from)];
            WellFormed(s) ==>
              AllEntries(s.(folders := f1[toFolder := SpliceInsert(s.folders[toFolder], ins, src[from])])) == AllEntries(s)
  {
    if WellFormed(s) {
      var src := s.folders[fromFolder];
      var dst := s.folders[toFolder];
      var xs := RemoveAt(src, from);
      var ys := SpliceInsert(dst, ins, src[from]);
      var f1 := s.folders[fromFolder := xs];
      EntriesInUpdate(s.order, s.folders, fromFolder, xs);
      EntriesInUpdate(s.order, f1, toFolder, ys);
      assert Get(f1, toFolder) == dst;
      assert multiset(xs) + multiset{src[from]} == multiset(src);
      assert multiset(ys) == multiset(dst) + multiset{src[from]};
      MoveBalances(EntriesIn(s.order, s.folders), EntriesIn(s.order, f1), EntriesIn(s.order, f1[toFolder := ys]),
                   multiset(src), multiset(xs), multiset(dst), multiset(ys), multiset{src[from]});
    }
  }

  /** The insertion index of a same-folder drop as written: `getDropIndexFull`
      runs after the removal, so it sees the shortened length `n - 1`, and the
      result is decremented when the entry came from above. */
  function SameFolderIndex(n: nat, from: nat, fi: seq<int>, slot: nat): int
    requires from < n && slot <= |fi|
  {
    var d := DropIndexFull(n - 1, fi, slot);
    if from < d then d - 1 else d
  }

  /** `insertIdx` as evidently intended: the slot translated against the
      list the `fullIndex` values describe (length `n`, before the removal). */
  function IntendedIndex(n: nat, from: nat, fi: seq<int>, slot: nat): int
    requires from < n && slot <= |fi|
  {
    var d := DropIndexFull(n, fi, slot);
    if from < d then d - 1 else d
  }

  /** The internal chat drop: `dragData = {fromFolder, fromIndex}`, target
      `toFolder`, marker at `slot` among candidate items with `fullIndex`
      values `fi`. */
  function ChatDrop(s: State, fromFolder: string, fromIndex: nat, toFolder: string, fi: seq<int>, slot: nat): (r: State)
    requires fromFolder in s.folders && toFolder in s.folders && slot <= |fi|
    ensures IsCollapsed(s, toFolder) || fromIndex >= |s.folders[fromFolder]| ==> r == s
    ensures r.order == s.order && r.collapsed == s.collapsed && r.folderColors == s.folderColors
    ensures r.folders.Keys == s.folders.Keys
    ensures forall n :: n in s.folders && n != fromFolder && n != toFolder ==> r.folders[n] == s.folders[n]
    ensures !IsCollapsed(s, toFolder) && fromIndex < |s.folders[fromFolder]| ==>
              s.folders[fromFolder][fromIndex] in r.folders[toFolder]
    ensures WellFormed(s) ==> WellFormed(r) && AllEntries(r) == AllEntries(s)
  {
    var src := s.folders[fromFolder];
    if IsCollapsed(s, toFolder) || fromIndex >= |src| then s
    else if fromFolder == toFolder then
      Reinsert(s, fromFolder, fromIndex, SameFolderIndex(|src|, fromIndex, fi, slot))
    else
      var dst := s.folders[toFolder];
      Transfer(s, fromFolder, fromIndex, toFolder, Min(DropIndexFull(|dst|, fi, slot), |dst|))
  }

  /** The same drop with the intended same-folder index. */
  function ChatDropIntended(s: State, fromFolder: string, fromIndex: nat, toFolder: string, fi: seq<int>, slot: nat): (r: State)
    requires fromFolder in s.folders && toFolder in s.folders && slot <= |fi|
    ensures IsCollapsed(s, toFolder) || fromIndex >= |s.folders[fromFolder]| ==> r == s
    ensures r.order == s.order && r.collapsed == s.collapsed && r.folderColors == s.folderColors
    ensures r.folders.Keys == s.folders.Keys
    ensures forall n :: n in s.folders && n != fromFolder && n != toFolder ==> r.folders[n] == s.folders[n]
    ensures WellFormed(s) ==> WellFormed(r) && AllEntries(r) == AllEntries(s)
  {
    var src := s.folders[fromFolder];
    if IsCollapsed(s, toFolder) || fromIndex >= |src| then s
    else if fromFolder == toFolder then
      Reinsert(s, fromFolder, fromIndex, IntendedIndex(|src|, fromIndex, fi, slot))
    else
      var dst := s.folders[toFolder];
      Transfer(s, fromFolder, fromIndex, toFolder, Min(DropIndexFull(|dst|, fi, slot), |dst|))
  }

  /** Where the entry at `j` of a list sits once the entry at `from` is
      removed (`Shift`) and then reinserted at `ins` (`Place`). */
  function Shift(j: int, from: nat): int {
    if j < from then j else j - 1
  }

  function Place(j: int, from: nat, ins: int): int {
    var t := Shift(j, from);
    if t < ins then t else t + 1
  }

  /** Moving one entry keeps every other entry, at its `Place`, on the
      same side of the moved entry as its shifted index. */
  lemma MovePlaces<T>(xs: seq<T>, from: nat, ins: nat, j: nat)
    requires from < |xs| && ins < |xs| && j < |xs| && j != from
    ensures var ys := InsertAt(RemoveAt(xs, from), ins, xs[from]);
            && 0 <= Place(j, from, ins) < |ys|
            && ys[Place(j, from, ins)] == xs[j]
            && Place(j, from, ins) != ins
            && (Place(j, from, ins) < ins <==> Shift(j, from) < ins)
  {
    var zs := RemoveAt(xs, from);
    var t := Shift(j, from);
    assert zs[t] == xs[j] by {
      if j < from {
        assert zs[j] == xs[j];
      } else {
        assert zs[j - 1] == xs[j];
      }
    }
    var ys := InsertAt(zs, ins, xs[from]);
    if t < ins {
      assert ys[t] == zs[t];
    } else {
      assert ys[t + 1] == zs[t];
    }
  }

  /** The as-written same-folder index never needs the clamping of
      `splice` when the `fullIndex` values are consistent. */
  lemma SameFolderIndexInBounds(n: nat, from: nat, fi: seq<int>, slot: nat)
    requires from < n && slot <= |fi| && Consistent(fi, n)
    ensures 0 <= SameFolderIndex(n, from, fi, slot) <= n - 1
  {
    if 0 < |fi| && slot < |fi| {
      assert fi[slot] < n;
    }
  }

  /** The candidate items exclude the dragged one. */
  predicate Excludes(fi: seq<int>, from: nat) {
    forall k :: 0 <= k < |fi| ==> fi[k] != from
  }

  /** The as-written index puts the entry between the candidate items before
      the marker and those after it, except at the slot after the last item
      when that item is the folder's final entry. */
  lemma SameFolderIndexSeparates(n: nat, from: nat, fi: seq<int>, slot: nat)
    requires from < n && slot <= |fi| && Consistent(fi, n) && Excludes(fi, from)
    requires !(0 < slot == |fi| && fi[|fi| - 1] == n - 1)
    ensures forall k :: 0 <= k < slot ==> Shift(fi[k], from) < SameFolderIndex(n, from, fi, slot)
    ensures forall k :: slot <= k < |fi| ==> SameFolderIndex(n, from, fi, slot) <= Shift(fi[k], from)
  {
    if 0 < |fi| && slot < |fi| {
      assert fi[slot] < n && fi[slot] != from;
    }
  }

  /** The intended index separates the candidate items at every slot and
      makes a drop after the last entry (or into a list showing nothing
      else) land at the very end. */
  lemma IntendedIndexSeparates(n: nat, from: nat, fi: seq<int>, slot: nat)
    requires from < n && slot <= |fi| && Consistent(fi, n) && Excludes(fi, from)
    ensures 0 <= IntendedIndex(n, from, fi, slot) <= n - 1
    ensures forall k :: 0 <= k < slot ==> Shift(fi[k], from) < IntendedIndex(n, from, fi, slot)
    ensures forall k :: slot <= k < |fi| ==> IntendedIndex(n, from, fi, slot) <= Shift(fi[k], from)
    ensures slot == |fi| && (|fi| == 0 || fi[|fi| - 1] == n - 1) ==> IntendedIndex(n, from, fi, slot) == n - 1
  {
    if 0 < |fi| && slot < |fi| {
      assert fi[slot] < n && fi[slot] != from;
    }
  }

  /** A same-folder drop as written: the dragged entry lands at the computed
      index, every candidate item keeps its entry, and the items above the
      marker stay above the moved entry and those below stay below, outside
      the exception of `SameFolderIndexSeparates`; the item right below the
      marker follows the moved entry directly. */
  lemma ChatDropSeparates(s: State, f: string, from: nat, fi: seq<int>, slot: nat)
    requires f in s.folders && !IsCollapsed(s, f) && from < |s.folders[f]| && slot <= |fi|
    requires Consistent(fi, |s.folders[f]|) && Excludes(fi, from)
    requires !(0 < slot == |fi| && fi[|fi| - 1] == |s.folders[f]| - 1)
    ensures var xs := s.folders[f];
            var ys := ChatDrop(s, f, from, f, fi, slot).folders[f];
            var ins := SameFolderIndex(|xs|, from, fi, slot);
            && 0 <= ins < |ys| && ys[ins] == xs[from]
            && (slot < |fi| ==> Place(fi[slot], from, ins) == ins + 1)
            && forall k :: 0 <= k < |fi| ==>
                 && 0 <= Place(fi[k], from, ins) < |ys|
                 && ys[Place(fi[k], from, ins)] == xs[fi[k]]
                 && (k < slot <==> Place(fi[k], from, ins) < ins)
  {
    var xs := s.folders[f];
    var ins := SameFolderIndex(|xs|, from, fi, slot);
    SameFolderIndexInBounds(|xs|, from, fi, slot);
    SameFolderIndexSeparates(|xs|, from, fi, slot);
    assert ChatDrop(s, f, from, f, fi, slot).folders[f] == InsertAt(RemoveAt(xs, from), ins, xs[from]);
    forall k | 0 <= k < |fi|
      ensures var ys := InsertAt(RemoveAt(xs, from), ins, xs[from]);
              && 0 <= Place(fi[k], from, ins) < |ys|
              && ys[Place(fi[k], from, ins)] == xs[fi[k]]
              && (k < slot <==> Place(fi[k], from, ins) < ins)
    {
      MovePlaces(xs, from, ins, fi[k]);
    }
  }

  /** The corrected same-folder drop separates the candidate items at every
      slot, puts the item right below the marker directly after the dragged
      entry, and the slot after the last entry makes the dragged entry last. */
  lemma ChatDropIntendedSeparates(s: State, f: string, from: nat, fi: seq<int>, slot: nat)
    requires f in s.folders && !IsCollapsed(s, f) && from < |s.folders[f]| && slot <= |fi|
    requires Consistent(fi, |s.folders[f]|) && Excludes(fi, from)
    ensures var xs := s.folders[f];
            var ys := ChatDropIntended(s, f, from, f, fi, slot).folders[f];
            var ins := IntendedIndex(|xs|, from, fi, slot);
            && 0 <= ins < |ys| && ys[ins] == xs[from]
            && (slot == |fi| && (|fi| == 0 || fi[|fi| - 1] == |xs| - 1) ==> ins == |ys| - 1)
            && (slot < |fi| ==> Place(fi[slot], from, ins) == ins + 1)
            && forall k :: 0 <= k < |fi| ==>
                 && 0 <= Place(fi[k], from, ins) < |ys|
                 && ys[Place(fi[k], from, ins)] == xs[fi[k]]
                 && (k < slot <==> Place(fi[k], from, ins) < ins)
  {
    var xs := s.folders[f];
    var ins := IntendedIndex(|xs|, from, fi, slot);
    IntendedIndexSeparates(|xs|, from, fi, slot);
    assert ChatDropIntended(s, f, from, f, fi, slot).folders[f] == InsertAt(RemoveAt(xs, from), ins, xs[from]);
    forall k | 0 <= k < |fi|
      ensures var ys := InsertAt(RemoveAt(xs, from), ins, xs[from]);
              && 0 <= Place(fi[k], from, ins) < |ys|
              && ys[Place(fi[k], from, ins)] == xs[fi[k]]
              && (k < slot <==> Place(fi[k], from, ins) < ins)
    {
      MovePlaces(xs, from, ins, fi[k]);
    }
  }

  /** Dropping an entry back onto its own place changes nothing. */
  lemma ChatDropInPlace(s: State, f: string, from: nat, fi: seq<int>, slot: nat)
    requires f in s.folders && from < |s.folders[f]| && slot <= |fi|
    requires SameFolderIndex(|s.folders[f]|, from, fi, slot) == from
    ensures ChatDrop(s, f, from, f, fi, slot) == s
  {
    var xs := s.folders[f];
    if !IsCollapsed(s, f) {
      RemoveInsertSame(xs, from);
      assert s.folders[f := xs] == s.folders;
    }
  }

  /** A drop into another folder splices the entry in at the translated
      index and changes nothing else in the list. That index is the full
      index of the candidate item right below the marker, so entries hidden
      by the filter between two shown items stay above the dropped one. */
  lemma CrossDropSeparates(s: State, fromFolder: string, from: nat, toFolder: string, fi: seq<int>, slot: nat)
    requires fromFolder in s.folders && toFolder in s.folders && fromFolder != toFolder
    requires !IsCollapsed(s, toFolder) && from < |s.folders[fromFolder]| && slot <= |fi|
    requires Consistent(fi, |s.folders[toFolder]|)
    ensures var dst := s.folders[toFolder];
            var ys := ChatDrop(s, fromFolder, from, toFolder, fi, slot).folders[toFolder];
            var d := DropIndexFull(|dst|, fi, slot);
            && 0 <= d < |ys| && ys[d] == s.folders[fromFolder][from]
            && (forall k :: 0 <= k < slot ==> ys[fi[k]] == dst[fi[k]] && fi[k] < d)
            && (forall k :: slot <= k < |fi| ==> ys[fi[k] + 1] == dst[fi[k]] && d <= fi[k])
            && (slot < |fi| ==> d == fi[slot] && ys[d + 1] == dst[fi[slot]])
            && ys == dst[..d] + [s.folders[fromFolder][from]] + dst[d..]
  {
  }

  /** The list a same-folder drop on an expanded folder leaves: the entry
      spliced back in at the as-written index after its removal; for the
      corrected drop, at the intended index. */
  lemma SameFolderDropList(s: State, f: string, from: nat, fi: seq<int>, slot: nat)
    requires f in s.folders && !IsCollapsed(s, f) && from < |s.folders[f]| && slot <= |fi|
    ensures var xs := s.folders[f];
            ChatDrop(s, f, from, f, fi, slot).folders[f]
              == SpliceInsert(RemoveAt(xs, from), SameFolderIndex(|xs|, from, fi, slot), xs[from])
    ensures var xs := s.folders[f];
            ChatDropIntended(s, f, from, f, fi, slot).folders[f]
              == SpliceInsert(RemoveAt(xs, from), IntendedIndex(|xs|, from, fi, slot), xs[from])
  {
    var xs := s.folders[f];
    assert ChatDrop(s, f, from, f, fi, slot) == Reinsert(s, f, from, SameFolderIndex(|xs|, from, fi, slot));
    assert ChatDropIntended(s, f, from, f, fi, slot) == Reinsert(s, f, from, IntendedIndex(|xs|, from, fi, slot));
  }

  /** Dragging the first of three chats [a, b, c] of an expanded folder
      below the last one (candidates b and c at full indexes 1 and 2, marker
      after the last) yields [b, a, c] as written: c, shown above the
      marker, ends up below the dropped chat. */
  lemma EndDropLandsSecondToLast(s: State, f: string, a: Entry, b: Entry, c: Entry)
    requires f in s.folders && s.folders[f] == [a, b, c] && !IsCollapsed(s, f)
    ensures ChatDrop(s, f, 0, f, [1, 2], 2).folders[f] == [b, a, c]
  {
    SameFolderDropList(s, f, 0, [1, 2], 2);
    EndDropLists(a, b, c);
  }

  /** The corrected drop of the same gesture yields [b, c, a]. */
  lemma EndDropIntendedLandsLast(s: State, f: string, a: Entry, b: Entry, c: Entry)
    requires f in s.folders && s.folders[f] == [a, b, c] && !IsCollapsed(s, f)
    ensures ChatDropIntended(s, f, 0, f, [1, 2], 2).folders[f] == [b, c, a]
  {
    SameFolderDropList(s, f, 0, [1, 2], 2);
    EndDropLists(a, b, c);
  }

  lemma EndDropLists(a: Entry, b: Entry, c: Entry)
    ensures SpliceInsert(RemoveAt([a, b, c], 0), SameFolderIndex(3, 0, [1, 2], 2), a) == [b, a, c]
    ensures SpliceInsert(RemoveAt([a, b, c], 0), IntendedIndex(3, 0, [1, 2], 2), a) == [b, c, a]
  {
    EndDropIndexes();
    assert RemoveAt([a, b, c], 0) == [b, c];
    InsertSecond(b, c, a);
  }

  /** The two translations of the end slot over candidates at 1 and 2 of
      three entries, the first being dragged. */
  lemma EndDropIndexes()
    ensures SameFolderIndex(3, 0, [1, 2], 2) == 1
    ensures IntendedIndex(3, 0, [1, 2], 2) == 2
  {
    assert DropIndexFull(2, [1, 2], 2) == 2;
    assert DropIndexFull(3, [1, 2], 2) == 3;
  }

  lemma InsertSecond(b: Entry, c: Entry, a: Entry)
    ensures SpliceInsert([b, c], 1, a) == [b, a, c]
    ensures SpliceInsert([b, c], 2, a) == [b, c, a]
  {
    InsertMiddle(b, c, a);
    InsertLast(b, c, a);
  }

  lemma InsertMiddle(b: Entry, c: Entry, a: Entry)
    ensures InsertAt([b, c], 1, a) == [b, a, c]
  {
    var r := InsertAt([b, c], 1, a);
    assert r[0] == b && r[1] == a && r[2] == c;
  }

  lemma InsertLast(b: Entry, c: Entry, a: Entry)
    ensures InsertAt([b, c], 2, a) == [b, c, a]
  {
    var r := InsertAt([b, c], 2, a);
    assert r[0] == b && r[1] == c && r[2] == a;
  }
}

=== FILE: folders.dfy ===
/** The folder primitives of content.js, cut out of their dialogs: create,
    rename, clear, delete, clear all, collapse toggle, colour validation and the folder
    reorder drop. Each is a pure function of the state and the values the
    dialog or the mouse position would supply. */
module Folders {
  import opened Wrappers
  import opened Seqs
  import opened Text
  import opened Groups

  datatype FolderError = EmptyName | DuplicateName

  /** Names under which `s.folders[name]` is truthy even when no such folder
      exists: the members every object inherits from `Object.prototype`. */
  const InheritedNames: set<string> := {
    "constructor", "__proto__", "hasOwnProperty", "isPrototypeOf",
    "propertyIsEnumerable", "toLocaleString", "toString", "valueOf",
    "__defineGetter__", "__defineSetter__", "__lookupGetter__", "__lookupSetter__"}

  /** The "already exists" test `s.folders[name]` of the dialogs. */
  predicate Taken(s: State, name: string) {
    name in s.folders || name in InheritedNames
  }

  /** The rename dialog's colour when the folder has none. */
  const DefaultColor: string := "#444444"

  /** `(text || "").trim()`, kept when it is a valid `#rgb` / `#rrggbb`
      colour, replaced by `fallback` otherwise. */
  function ChooseColor(raw: string, fallback: string): (c: string)
    ensures IsValidHex(c) || c == fallback
    ensures IsValidHex(fallback) ==> IsValidHex(c)
    ensures IsValidHex(Trim(raw)) ==> c == Trim(raw)
    ensures !IsValidHex(Trim(raw)) ==> c == fallback
  {
    var v := Trim(raw);
    if IsValidHex(v) then v else fallback
  }

  /** The commit of the create-folder dialog. `randomColor` is the pastel
      colour the dialog drew when it opened. */
  function CreateFolder(s: State, rawName: string, rawColor: string, randomColor: string): (r: Result<State, FolderError>)
    ensures Trim(rawName) == "" <==> r == Err(EmptyName)
    ensures Trim(rawName) != "" && Taken(s, Trim(rawName)) <==> r == Err(DuplicateName)
    ensures r.Ok? ==> var name := Trim(rawName);
      && name !in s.folders
      && r.value.folders == s.folders[name := []]
      && r.value.order == s.order + [name]
      && r.value.collapsed == s.collapsed
      && r.value.folderColors == s.folderColors[name := ChooseColor(rawColor, randomColor)]
    ensures r.Ok? && WellFormed(s) ==> WellFormed(r.value)
    ensures r.Ok? ==> AllEntries(r.value) == AllEntries(s)
  {
    var name := Trim(rawName);
    if name == "" then Err(EmptyName)
    else if Taken(s, name) then Err(DuplicateName)
    else
      var r := State(s.folders[name := []], s.order + [name], s.collapsed,
                     s.folderColors[name := ChooseColor(rawColor, randomColor)]);
      CreateKeepsEntries(s, name);
      CreateKeepsWellFormed(s, name, r);
      Ok(r)
  }

  lemma CreateKeepsWellFormed(s: State, name: string, r: State)
    requires name !in s.folders
    requires r.folders == s.folders[name := []] && r.order == s.order + [name]
    ensures WellFormed(s) ==> WellFormed(r)
  {
    if WellFormed(s) {
      assert name !in s.order;
      forall i, j | 0 <= i < j < |r.order| ensures r.order[i] != r.order[j] {
        if j == |s.order| {
          assert r.order[i] == s.order[i];
        }
      }
    }
  }

  lemma CreateKeepsEntries(s: State, name: string)
    requires name !in s.folders
    ensures EntriesIn(s.order + [name], s.folders[name := []]) == EntriesIn(s.order, s.folders)
  {
    EntriesInAppend(s.order, [name], s.folders[name := []]);
    if name in s.order {
      EntriesInOtherKeys(s.order, s.folders, name);
    } else {
      EntriesInOther(s.order, s.folders, name, []);
    }
    assert [name][1..] == [];
  }

  /** Giving an empty list to a name without a folder changes no total. */
  lemma {:induction false} EntriesInOtherKeys(names: seq<string>, folders: map<string, seq<Entry>>, name: string)
    requires name !in folders
    ensures EntriesIn(names, folders[name := []]) == EntriesIn(names, folders)
    decreases |names|
  {
    if |names| > 0 {
      EntriesInOtherKeys(names[1..], folders, name);
    }
  }

  lemma {:induction false} EntriesInAppend(a: seq<string>, b: seq<string>, folders: map<string, seq<Entry>>)
    ensures EntriesIn(a + b, folders) == EntriesIn(a, folders) + EntriesIn(b, folders)
    decreases |a|
  {
    if |a| == 0 {
      assert a + b == b;
    } else {
      assert (a + b)[0] == a[0];
      assert (a + b)[1..] == a[1..] + b;
      EntriesInAppend(a[1..], b, folders);
    }
  }

  /** `order.map(n => n === oldName ? newName : n)`. */
  function ReplaceName(order: seq<string>, oldName: string, newName: string): (r: seq<string>)
    ensures |r| == |order|
    ensures forall i :: 0 <= i < |r| ==> r[i] == if order[i] == oldName then newName else order[i]
  {
    seq(|order|, i requires 0 <= i < |order| => if order[i] == oldName then newName else order[i])
  }

  /** The colour the rename dialog starts from: the folder's own when it has
      a non-empty one, otherwise the default. */
  function CurrentColor(s: State, name: string): string {
    if name in s.folderColors && s.folderColors[name] != "" then s.folderColors[name] else DefaultColor
  }

  /** The commit of the rename dialog opened on folder `oldName`. */
  function RenameFolder(s: State, oldName: string, rawName: string, rawColor: string): (r: Result<State, FolderError>)
    ensures Trim(rawName) == "" <==> r == Err(EmptyName)
    ensures (Trim(rawName) != "" && Trim(rawName) != oldName && Taken(s, Trim(rawName))) <==> r == Err(DuplicateName)
    ensures r.Ok? ==> var newName := Trim(rawName);
      && |r.value.order| == |s.order|
      && (forall i :: 0 <= i < |s.order| ==>
            r.value.order[i] == if s.order[i] == oldName then newName else s.order[i])
      && (oldName in s.folders ==> newName in r.value.folders && r.value.folders[newName] == s.folders[oldName])
      && (oldName !in s.folders ==> r.value.folders == s.folders)
      && (newName != oldName ==> oldName !in r.value.folders)
      && (forall n :: n != oldName && n != newName ==>
            (n in r.value.folders <==> n in s.folders) && (n in s.folders ==> r.value.folders[n] == s.folders[n]))
      && newName in r.value.folderColors
      && r.value.folderColors[newName] == ChooseColor(rawColor, CurrentColor(s, oldName))
      && r.value.collapsed == s.collapsed
    ensures r.Ok? && WellFormed(s) ==> WellFormed(r.value)
  {
    var newName := Trim(rawName);
    var newColor := ChooseColor(rawColor, CurrentColor(s, oldName));
    if newName == "" then Err(EmptyName)
    else if newName != oldName && Taken(s, newName) then Err(DuplicateName)
    else if newName != oldName then
      RenameKeepsWellFormed(s, oldName, newName, newColor);
      RenamedMoves(s, oldName, newName, newColor);
      Ok(Renamed(s, oldName, newName, newColor))
    else
      Ok(s.(folderColors := s.folderColors[newName := newColor]))
  }

  /** The state a rename to a different, free name commits: the entries
      move to the new key, the name is replaced in place in `order`, the new
      colour is set and a non-empty old colour is dropped. A name listed in
      `order` without a folder has a card too; renaming it stores
      `folders[newName] = undefined`, which the stored document does not
      keep, so the folders stay as they were. */
  function Renamed(s: State, oldName: string, newName: string, newColor: string): State {
    var colors := s.folderColors[newName := newColor];
    State(
      if oldName in s.folders then (s.folders - {oldName})[newName := s.folders[oldName]] else s.folders,
      ReplaceName(s.order, oldName, newName),
      s.collapsed,
      if oldName in s.folderColors && s.folderColors[oldName] != "" then colors - {oldName} else colors)
  }

  lemma RenamedMoves(s: State, oldName: string, newName: string, newColor: string)
    requires newName != oldName
    ensures var r := Renamed(s, oldName, newName, newColor);
      && (oldName in s.folders ==> newName in r.folders && r.folders[newName] == s.folders[oldName])
      && (oldName !in s.folders ==> r.folders == s.folders)
      && oldName !in r.folders
      && (forall n :: n != oldName && n != newName ==>
            (n in r.folders <==> n in s.folders) && (n in s.folders ==> r.folders[n] == s.folders[n]))
      && newName in r.folderColors && r.folderColors[newName] == newColor
  {
  }

  lemma RenameKeepsWellFormed(s: State, oldName: string, newName: string, newColor: string)
    requires newName !in s.folders && newName != oldName
    ensures WellFormed(s) ==> WellFormed(Renamed(s, oldName, newName, newColor))
  {
    var r := Renamed(s, oldName, newName, newColor);
    if WellFormed(s) && oldName !in s.folders {
      assert oldName !in s.order;
      assert r.order == s.order;
    } else if WellFormed(s) {
      ReplaceNameDistinct(s.order, oldName, newName);
      forall n | n in r.order ensures n in r.folders {
        var i :| 0 <= i < |r.order| && r.order[i] == n;
      }
      forall n | n in r.folders ensures n in r.order {
        ReplaceNameKeeps(s.order, oldName, newName, n);
      }
    }
  }

  /** Replacing a name by one not in the list keeps the list duplicate-free. */
  lemma ReplaceNameDistinct(order: seq<string>, oldName: string, newName: string)
    requires Distinct(order) && newName !in order
    ensures Distinct(ReplaceName(order, oldName, newName))
  {
    var r := ReplaceName(order, oldName, newName);
    forall i, j | 0 <= i < j < |r| ensures r[i] != r[j] {
    }
  }

  /** Every name of the list other than the old one, and the new one in its
      place, is still listed. */
  lemma ReplaceNameKeeps(order: seq<string>, oldName: string, newName: string, n: string)
    requires oldName in order
    requires n == newName || (n != oldName && n in order)
    ensures n in ReplaceName(order, oldName, newName)
  {
    var r := ReplaceName(order, oldName, newName);
    var i := IndexOf(order, if n == newName then oldName else n);
    assert r[i] == n;
  }

  /** Renaming a folder and then renaming it back restores the folders and
      the order exactly. */
  lemma RenameBackRestores(s: State, a: string, b: string, c1: string, c2: string)
    requires WellFormed(s) && a in s.folders
    requires Trim(a) == a && Trim(b) == b && a != "" && a !in InheritedNames
    requires RenameFolder(s, a, b, c1).Ok?
    ensures RenameFolder(RenameFolder(s, a, b, c1).value, b, a, c2).Ok?
    ensures RenameFolder(RenameFolder(s, a, b, c1).value, b, a, c2).value.folders == s.folders
    ensures RenameFolder(RenameFolder(s, a, b, c1).value, b, a, c2).value.order == s.order
  {
    if a != b {
      var s1 := Renamed(s, a, b, ChooseColor(c1, CurrentColor(s, a)));
      RenameFolderIsRenamed(s, a, b, c1);
      assert a !in s1.folders;
      RenameFolderIsRenamed(s1, b, a, c2);
      RenamedBack(s, a, b, ChooseColor(c1, CurrentColor(s, a)), ChooseColor(c2, CurrentColor(s1, b)));
    }
  }

  /** A rename to a different, free, non-blank name commits `Renamed`. */
  lemma RenameFolderIsRenamed(s: State, oldName: string, rawName: string, rawColor: string)
    requires Trim(rawName) != "" && Trim(rawName) != oldName && !Taken(s, Trim(rawName))
    ensures RenameFolder(s, oldName, rawName, rawColor)
            == Ok(Renamed(s, oldName, Trim(rawName), ChooseColor(rawColor, CurrentColor(s, oldName))))
  {
  }

  lemma RenamedBack(s: State, a: string, b: string, c1: string, c2: string)
    requires a in s.folders && b !in s.folders && b !in s.order && a != b
    ensures Renamed(Renamed(s, a, b, c1), b, a, c2).folders == s.folders
    ensures Renamed(Renamed(s, a, b, c1), b, a, c2).order == s.order
  {
    var f1 := (s.folders - {a})[b := s.folders[a]];
    var o1 := ReplaceName(s.order, a, b);
    assert ReplaceName(o1, b, a) == s.order;
    assert (f1 - {b})[a := f1[b]] == s.folders;
  }

  /** The Clear branch of the folder action button: the folder stays, empty. */
  function ClearFolder(s: State, name: string): (r: State)
    requires name in s.folders
    ensures r.folders.Keys == s.folders.Keys && r.folders[name] == []
    ensures forall n :: n in s.folders && n != name ==> r.folders[n] == s.folders[n]
    ensures r.order == s.order && r.collapsed == s.collapsed && r.folderColors == s.folderColors
    ensures WellFormed(s) ==> WellFormed(r)
    ensures WellFormed(s) ==> AllEntries(r) + multiset(s.folders[name]) == AllEntries(s)
  {
    ClearEntries(s, name);
    s.(folders := s.folders[name := []])
  }

  lemma ClearEntries(s: State, name: string)
    requires name in s.folders
    ensures WellFormed(s) ==> EntriesIn(s.order, s.folders[name := []]) + multiset(s.folders[name]) == AllEntries(s)
  {
    if WellFormed(s) {
      EntriesInUpdate(s.order, s.folders, name, []);
    }
  }

  /** `order.filter(x => x !== name)`. */
  function Without(order: seq<string>, name: string): (r: seq<string>)
    ensures name !in r
    ensures forall n :: n != name ==> (n in r <==> n in order)
    ensures name !in order ==> r == order
    decreases |order|
  {
    if |order| == 0 then []
    else if order[0] == name then Without(order[1..], name)
    else [order[0]] + Without(order[1..], name)
  }

  /** In a duplicate-free list the filter takes out exactly the one slot
      holding the name. */
  lemma {:induction false} WithoutRemovesOne(order: seq<string>, name: string)
    requires Distinct(order) && name in order
    ensures Without(order, name) == RemoveAt(order, IndexOf(order, name))
    decreases |order|
  {
    var i := IndexOf(order, name);
    if order[0] == name {
      assert name !in order[1..];
      assert i == 0;
      assert RemoveAt(order, 0) == order[1..];
    } else {
      var tail := order[1..];
      assert Distinct(tail);
      assert name in tail;
      WithoutRemovesOne(tail, name);
      var j := IndexOf(tail, name);
      assert order[j + 1] == name;
      assert i == j + 1;
      assert RemoveAt(order, i) == [order[0]] + RemoveAt(tail, j);
    }
  }

  /** Taking one slot out of a duplicate-free list keeps it duplicate-free. */
  lemma DistinctRemoveAt<T>(xs: seq<T>, i: nat)
    requires Distinct(xs) && i < |xs|
    ensures Distinct(RemoveAt(xs, i))
  {
    var r := RemoveAt(xs, i);
    forall a, b | 0 <= a < b < |r| ensures r[a] != r[b] {
      var a', b' := if a < i then a else a + 1, if b < i then b else b + 1;
      assert r[a] == xs[a'] && r[b] == xs[b'];
    }
  }

  /** The Delete branch: the folder leaves `folders` and `order`; its
      `collapsed` and `folderColors` keys stay behind. */
  function DeleteFolder(s: State, name: string): (r: State)
    ensures name !in r.folders && name !in r.order
    ensures forall n :: n != name ==> (n in r.folders <==> n in s.folders) && (n in r.order <==> n in s.order)
    ensures forall n :: n in r.folders ==> r.folders[n] == s.folders[n]
    ensures WellFormed(s) && name in s.order ==> r.order == RemoveAt(s.order, IndexOf(s.order, name))
    ensures r.collapsed == s.collapsed && r.folderColors == s.folderColors
    ensures WellFormed(s) ==> WellFormed(r)
    ensures WellFormed(s) && name in s.folders && s.folders[name] == [] ==> AllEntries(r) == AllEntries(s)
  {
    DeleteKeepsEntries(s, name);
    if Distinct(s.order) && name in s.order then
      WithoutRemovesOne(s.order, name);
      DistinctRemoveAt(s.order, IndexOf(s.order, name));
      State(s.folders - {name}, Without(s.order, name), s.collapsed, s.folderColors)
    else
      State(s.folders - {name}, Without(s.order, name), s.collapsed, s.folderColors)
  }

  lemma DeleteKeepsEntries(s: State, name: string)
    ensures WellFormed(s) && name in s.folders && s.folders[name] == []
            ==> EntriesIn(Without(s.order, name), s.folders - {name}) == EntriesIn(s.order, s.folders)
  {
    if WellFormed(s) && name in s.folders && s.folders[name] == [] {
      var i := IndexOf(s.order, name);
      var rest := RemoveAt(s.order, i);
      WithoutRemovesOne(s.order, name);
      EntriesInRemoveAt(s.order, s.folders, i);
      assert name !in rest;
      EntriesInRemoveKey(rest, s.folders, name);
    }
  }

  /** Taking a name out of the list drops exactly that folder's entries from the total. */
  lemma EntriesInRemoveAt(names: seq<string>, folders: map<string, seq<Entry>>, i: nat)
    requires i < |names|
    ensures EntriesIn(RemoveAt(names, i), folders) + multiset(Get(folders, names[i])) == EntriesIn(names, folders)
  {
    var pre, post := names[..i], names[i + 1..];
    assert RemoveAt(names, i) == pre + post;
    assert names == pre + ([names[i]] + post);
    EntriesInAppend(pre, post, folders);
    EntriesInAppend(pre, [names[i]] + post, folders);
    EntriesInAppend([names[i]], post, folders);
    assert ([names[i]] + post)[1..] == post;
    assert [names[i]][1..] == [];
    var a, b, m := EntriesIn(pre, folders), EntriesIn(post, folders), multiset(Get(folders, names[i]));
    assert EntriesIn([names[i]], folders) == m;
    assert (a + b) + m == a + (m + b);
  }

  lemma {:induction false} EntriesInRemoveKey(names: seq<string>, folders: map<string, seq<Entry>>, name: string)
    requires name !in names
    ensures EntriesIn(names, folders - {name}) == EntriesIn(names, folders)
    decreases |names|
  {
    if |names| > 0 {
      EntriesInRemoveKey(names[1..], folders, name);
    }
  }

  /** The folder action button after its confirmation dialog, on the card
      of `name`, whose list is `folders[name] || []`: a folder with entries is
      cleared, an empty one is deleted, so no entry is ever lost by deleting.
      A name listed in `order` without a folder reads as empty, so its card
      deletes the name from `order`. */
  function FolderAction(s: State, name: string, confirmed: bool): (r: State)
    ensures !confirmed ==> r == s
    ensures confirmed && Get(s.folders, name) != [] ==>
              name in r.folders && r.folders[name] == [] && r.order == s.order
    ensures confirmed && Get(s.folders, name) != [] && WellFormed(s) ==>
              AllEntries(r) + multiset(s.folders[name]) == AllEntries(s)
    ensures confirmed && Get(s.folders, name) == [] ==>
              name !in r.folders && name !in r.order
              && (forall n :: n != name ==> (n in r.folders <==> n in s.folders) && (n in r.order <==> n in s.order))
              && (name !in s.folders ==> r.folders == s.folders)
    ensures WellFormed(s) ==> WellFormed(r)
    ensures WellFormed(s) && r.folders.Keys != s.folders.Keys ==> AllEntries(r) == AllEntries(s)
  {
    if !confirmed then s
    else if |Get(s.folders, name)| > 0 then ClearFolder(s, name)
    else DeleteFolder(s, name)
  }

  /** The "Clear all" button: once confirmed, the stored document becomes
      `{folders: {}, order: []}`. `getState` hands that back as it is, since
      an empty object is truthy, so the two seed folders do not return. */
  function ClearAll(s: State, confirmed: bool): (r: State)
    ensures !confirmed ==> r == s
    ensures confirmed ==> WellFormed(r) && r.order == [] && AllEntries(r) == multiset{}
    ensures confirmed ==> r.folders == map[] && r.collapsed == map[] && r.folderColors == map[]
    ensures confirmed ==> r != Seed()
  {
    if !confirmed then s else State(map[], [], map[], map[])
  }

  /** `!!(s.collapsed && s.collapsed[name])`. */
  predicate IsCollapsed(s: State, name: string) {
    name in s.collapsed && s.collapsed[name]
  }

  /** The collapse button: `collapsed[name] = !collapsed[name]`. */
  function ToggleCollapsed(s: State, name: string): (r: State)
    ensures IsCollapsed(r, name) == !IsCollapsed(s, name)
    ensures forall n :: n != name ==> IsCollapsed(r, n) == IsCollapsed(s, n)
    ensures r.folders == s.folders && r.order == s.order && r.folderColors == s.folderColors
  {
    s.(collapsed := s.collapsed[name := !IsCollapsed(s, name)])
  }

  /** Toggling twice shows every folder as before (an absent flag may come
      back as a stored `false`). */
  lemma ToggleTwice(s: State, name: string)
    ensures forall n :: IsCollapsed(ToggleCollapsed(ToggleCollapsed(s, name), name), n) == IsCollapsed(s, n)
  {
  }

  /** The drop of folder `fromName` on the card of folder `targetName`, on its
      upper half (`before`) or lower half. */
  function FolderDrop(s: State, fromName: string, targetName: string, before: bool): (r: State)
    requires fromName in s.order && targetName in s.order
    ensures r.folders == s.folders && r.collapsed == s.collapsed && r.folderColors == s.folderColors
    ensures multiset(r.order) == multiset(s.order)
  {
    s.(order := Reorder(s.order, IndexOf(s.order, fromName), DropSlot(s.order, targetName, before)))
  }

  /** The slot in front of which a folder dropped on the card of
      `targetName` goes: the card's own slot on its upper half, the next one
      on its lower half. */
  function DropSlot(order: seq<string>, targetName: string, before: bool): (t: nat)
    requires targetName in order
    ensures t <= |order|
    ensures 0 < |order| && (t == IndexOf(order, targetName) || t == IndexOf(order, targetName) + 1)
    ensures before <==> t == IndexOf(order, targetName)
  {
    var i := IndexOf(order, targetName);
    if before then i else i + 1
  }

  /** The folder drop keeps the document well formed. */
  lemma FolderDropKeepsWellFormed(s: State, fromName: string, targetName: string, before: bool)
    requires fromName in s.order && targetName in s.order
    ensures WellFormed(s) ==> WellFormed(FolderDrop(s, fromName, targetName, before))
  {
    DistinctPermutation(s.order, FolderDrop(s, fromName, targetName, before).order);
  }

  /** Taking out the name at `fromIdx` and putting it back before the
      pre-removal slot `toIdx`; no change when that slot is the name's own
      slot or the one right after it. */
  function Reorder(order: seq<string>, fromIdx: nat, toIdx: nat): (r: seq<string>)
    requires fromIdx < |order| && toIdx <= |order|
    ensures multiset(r) == multiset(order)
  {
    if toIdx == fromIdx || toIdx == fromIdx + 1 then order
    else InsertAt(RemoveAt(order, fromIdx), if fromIdx < toIdx then toIdx - 1 else toIdx, order[fromIdx])
  }

  /** A permutation of a duplicate-free sequence is duplicate-free and lists the same names. */
  lemma DistinctPermutation(a: seq<string>, b: seq<string>)
    requires multiset(a) == multiset(b)
    ensures forall n :: n in a <==> n in b
    ensures Distinct(a) ==> Distinct(b)
  {
    forall n ensures n in a <==> n in b {
      assert n in a <==> n in multiset(a);
      assert n in b <==> n in multiset(b);
    }
    if Distinct(a) {
      forall n ensures multiset(a)[n] <= 1 {
        DistinctCount(a, n);
      }
      forall i, j | 0 <= i < j < |b| ensures b[i] != b[j] {
        if b[i] == b[j] {
          CountTwo(b, i, j);
        }
      }
    }
  }

  lemma {:induction false} DistinctCount(a: seq<string>, n: string)
    requires Distinct(a)
    ensures multiset(a)[n] <= 1
    decreases |a|
  {
    if |a| > 0 {
      assert a == [a[0]] + a[1..];
      assert Distinct(a[1..]);
      DistinctCount(a[1..], n);
      if a[0] == n {
        assert n !in a[1..];
        assert multiset(a[1..])[n] == 0;
      }
    }
  }

  lemma CountTwo(b: seq<string>, i: nat, j: nat)
    requires i < j < |b| && b[i] == b[j]
    ensures multiset(b)[b[i]] >= 2
  {
    assert b == b[..i] + [b[i]] + b[i + 1..j] + [b[j]] + b[j + 1..];
  }

  /** Where the folder drop puts the dragged name, in the order after the drop. */
  function FolderDropTarget(s: State, fromName: string, targetName: string, before: bool): (t: int)
    requires fromName in s.order && targetName in s.order
  {
    var fromIdx := IndexOf(s.order, fromName);
    var toIdx := DropSlot(s.order, targetName, before);
    if fromIdx < toIdx then toIdx - 1 else toIdx
  }

  /** The folder drop only reorders, as `Reorder` from the dragged name's
      slot to the slot chosen by the half of the target card. */
  lemma FolderDropIsReorder(s: State, fromName: string, targetName: string, before: bool)
    requires fromName in s.order && targetName in s.order
    ensures FolderDrop(s, fromName, targetName, before).order
            == Reorder(s.order, IndexOf(s.order, fromName), DropSlot(s.order, targetName, before))
  {
  }

  /** The folder drop is a no-op exactly when the computed target slot is
      the dragged folder's own slot or the slot right after it. */
  lemma FolderDropNoOp(s: State, fromName: string, targetName: string, before: bool)
    requires Distinct(s.order) && fromName in s.order && targetName in s.order
    ensures var fromIdx := IndexOf(s.order, fromName);
            var toIdx := DropSlot(s.order, targetName, before);
            FolderDrop(s, fromName, targetName, before).order == s.order <==> (toIdx == fromIdx || toIdx == fromIdx + 1)
  {
    var toIdx := DropSlot(s.order, targetName, before);
    FolderDropIsReorder(s, fromName, targetName, before);
    ReorderMoves(s.order, IndexOf(s.order, fromName), toIdx);
  }

  /** When the folder drop changes the order, the dragged name sits at
      `toIdx - 1` (moving down) or `toIdx` (moving up) and the other names
      keep their relative order. */
  lemma FolderDropMoves(s: State, fromName: string, targetName: string, before: bool)
    requires Distinct(s.order) && fromName in s.order && targetName in s.order
    ensures var r := FolderDrop(s, fromName, targetName, before);
            var t := FolderDropTarget(s, fromName, targetName, before);
            r.order != s.order ==>
              0 <= t < |r.order| && r.order[t] == fromName
              && RemoveAt(r.order, t) == RemoveAt(s.order, IndexOf(s.order, fromName))
  {
    var f := IndexOf(s.order, fromName);
    var toIdx := DropSlot(s.order, targetName, before);
    FolderDropIsReorder(s, fromName, targetName, before);
    assert FolderDropTarget(s, fromName, targetName, before) == if f < toIdx then toIdx - 1 else toIdx;
    ReorderMoves(s.order, f, toIdx);
    assert s.order[f] == fromName;
  }

  lemma ReorderMoves(order: seq<string>, f: nat, toIdx: nat)
    requires Distinct(order) && f < |order| && toIdx <= |order|
    ensures Reorder(order, f, toIdx) == order <==> (toIdx == f || toIdx == f + 1)
    ensures var r := Reorder(order, f, toIdx);
            var t := if f < toIdx then toIdx - 1 else toIdx;
            r != order ==> t < |r| && r[t] == order[f] && RemoveAt(r, t) == RemoveAt(order, f)
  {
    if !(toIdx == f || toIdx == f + 1) {
      MoveWithin(order, f, toIdx);
    }
  }

  /** Taking out the element at `f` and reinserting it before the (pre-removal)
      slot `toIdx`, when that slot is neither `f` nor `f + 1`, changes the
      sequence, puts the element at the adjusted slot and keeps the others in order. */
  lemma MoveWithin(order: seq<string>, f: nat, toIdx: nat)
    requires Distinct(order) && f < |order| && toIdx <= |order| && toIdx != f && toIdx != f + 1
    ensures var ins := if f < toIdx then toIdx - 1 else toIdx;
            var o := InsertAt(RemoveAt(order, f), ins, order[f]);
            o != order && ins < |o| && o[ins] == order[f] && RemoveAt(o, ins) == RemoveAt(order, f)
  {
    var ins := if f < toIdx then toIdx - 1 else toIdx;
    var rest := RemoveAt(order, f);
    var o := InsertAt(rest, ins, order[f]);
    InsertRemoveSame(rest, ins, order[f]);
    assert ins != f;
    assert order[ins] != order[f];
  }
}

=== FILE: groups.dfy ===
/** The persisted record of content.js (`cgpt_groups_v1`), its seed, its
    well-formedness invariant, and the saved-page lookup `findSavedPage`. */
module Groups {
  import opened Wrappers
  import opened Seqs
  import opened Urls

  /** One saved chat (`{type, text, title, url, nurl, ts}`). An absent or
      empty string field is "" (JavaScript treats both as falsy). */
  datatype Entry = Entry(kind: string, text: string, title: string, url: string, nurl: string, ts: int)

  /** The whole persisted document. `order` lists the folder names in
      display order; `collapsed` and `folderColors` are keyed by name. */
  datatype State = State(
    folders: map<string, seq<Entry>>,
    order: seq<string>,
    collapsed: map<string, bool>,
    folderColors: map<string, string>)

  const PageKind: string := "page"
  const IdeasFolder: string := "\U{1F9E0} Ideas"
  const DraftFolder: string := "\U{1F4E6} Draft"

  /** The document `getState` yields when storage holds none: two empty
      folders, nothing collapsed, no colours. */
  function Seed(): (s: State)
    ensures WellFormed(s)
    ensures forall n :: n in s.folders ==> s.folders[n] == []
  {
    var s := State(map[IdeasFolder := [], DraftFolder := []], [IdeasFolder, DraftFolder], map[], map[]);
    assert IdeasFolder != DraftFolder by { assert IdeasFolder[0] != DraftFolder[0]; }
    s
  }

  /** `order` is a duplicate-free listing of exactly the keys of `folders`. */
  predicate WellFormed(s: State) {
    && Distinct(s.order)
    && (forall n :: n in s.order ==> n in s.folders)
    && (forall n :: n in s.folders ==> n in s.order)
  }

  /** `folders[name] || []`. */
  function Get(folders: map<string, seq<Entry>>, name: string): seq<Entry> {
    if name in folders then folders[name] else []
  }

  /** `it.nurl || normalizeUrl(it.url || "")`: the key an entry is compared by. */
  function EntryKey(p: Parser, e: Entry): string {
    if e.nurl != "" then e.nurl else Normalize(p, e.url)
  }

  /** The predicate every duplicate check applies: a page entry with this key. */
  predicate IsPageFor(p: Parser, e: Entry, key: string) {
    e.kind == PageKind && EntryKey(p, e) == key
  }

  function Matcher(p: Parser, key: string): Entry -> bool {
    e => IsPageFor(p, e, key)
  }

  /** `xs.some(x => x.type === "page" && key(x) === key)`. */
  predicate Holds(p: Parser, xs: seq<Entry>, key: string) {
    exists k :: 0 <= k < |xs| && IsPageFor(p, xs[k], key)
  }

  /** No two page entries of one folder share a key. */
  predicate UniqueKeys(p: Parser, xs: seq<Entry>) {
    forall i, j :: 0 <= i < j < |xs| && xs[i].kind == PageKind && xs[j].kind == PageKind
      ==> EntryKey(p, xs[i]) != EntryKey(p, xs[j])
  }

  predicate AllUnique(p: Parser, s: State) {
    forall n :: n in s.folders ==> UniqueKeys(p, s.folders[n])
  }

  /** A saved location `{folderName, index}`. */
  datatype Loc = Loc(folder: string, index: nat)

  /** `loc` is what the scan of `findSavedPage` stops at: the lowest matching
      index of the first folder (in `order`) holding a match. */
  predicate IsFirstSaved(p: Parser, s: State, key: string, loc: Loc) {
    && loc.folder in s.order
    && loc.index < |Get(s.folders, loc.folder)|
    && IsPageFor(p, Get(s.folders, loc.folder)[loc.index], key)
    && (forall i :: 0 <= i < loc.index ==> !IsPageFor(p, Get(s.folders, loc.folder)[i], key))
    && (forall j :: 0 <= j < IndexOf(s.order, loc.folder) ==> !Holds(p, Get(s.folders, s.order[j]), key))
  }

  /** The scan of `findSavedPage` from position `k` of `order`. */
  function FindFrom(p: Parser, s: State, key: string, k: nat): (r: Option<Loc>)
    requires k <= |s.order|
    ensures r.None? ==> forall j :: k <= j < |s.order| ==> !Holds(p, Get(s.folders, s.order[j]), key)
    ensures r.Some? ==> exists j :: k <= j < |s.order| && s.order[j] == r.value.folder
                          && forall j' :: k <= j' < j ==> !Holds(p, Get(s.folders, s.order[j']), key)
    ensures r.Some? ==> r.value.index < |Get(s.folders, r.value.folder)|
                        && IsPageFor(p, Get(s.folders, r.value.folder)[r.value.index], key)
                        && forall i :: 0 <= i < r.value.index ==> !IsPageFor(p, Get(s.folders, r.value.folder)[i], key)
    decreases |s.order| - k
  {
    if k == |s.order| then None
    else
      var xs := Get(s.folders, s.order[k]);
      var i := FindIndex(xs, Matcher(p, key));
      if i != -1 then Some(Loc(s.order[k], i))
      else
        assert !Holds(p, xs, key);
        FindFrom(p, s, key, k + 1)
  }

  /** `findSavedPage(rawUrl)`: the first saved page whose key is the key of
      `rawUrl`, folders scanned in `order`, or none when no folder holds one. */
  function FindSavedPage(p: Parser, s: State, rawUrl: string): (r: Option<Loc>)
    ensures r.Some? ==> IsFirstSaved(p, s, Normalize(p, rawUrl), r.value)
    ensures r.None? <==> forall n :: n in s.order ==> !Holds(p, Get(s.folders, n), Normalize(p, rawUrl))
  {
    var key := Normalize(p, rawUrl);
    FindFromFirst(p, s, key);
    FindFrom(p, s, key, 0)
  }

  lemma FindFromFirst(p: Parser, s: State, key: string)
    ensures FindFrom(p, s, key, 0).Some? ==> IsFirstSaved(p, s, key, FindFrom(p, s, key, 0).value)
  {
    var r := FindFrom(p, s, key, 0);
    if r.Some? {
      var j :| 0 <= j < |s.order| && s.order[j] == r.value.folder
               && forall j' :: 0 <= j' < j ==> !Holds(p, Get(s.folders, s.order[j']), key);
      var i0 := IndexOf(s.order, r.value.folder);
      assert forall k :: 0 <= k < i0 ==> s.order[k] != r.value.folder by {
        forall k | 0 <= k < i0 ensures s.order[k] != r.value.folder {
          assert s.order[..i0][k] == s.order[k];
        }
      }
    }
  }

  /** The number of saved page entries with `key` across the folders named in `names`. */
  function CountIn(p: Parser, key: string, names: seq<string>, folders: map<string, seq<Entry>>): nat
    decreases |names|
  {
    if |names| == 0 then 0
    else Count(Get(folders, names[0]), Matcher(p, key)) + CountIn(p, key, names[1..], folders)
  }

  /** The number of saved page entries with `key` in the whole document. */
  function KeyCount(p: Parser, s: State, key: string): nat {
    CountIn(p, key, s.order, s.folders)
  }

  /** All entries of the folders named in `names`, as a multiset. */
  function EntriesIn(names: seq<string>, folders: map<string, seq<Entry>>): multiset<Entry>
    decreases |names|
  {
    if |names| == 0 then multiset{}
    else multiset(Get(folders, names[0])) + EntriesIn(names[1..], folders)
  }

  /** Every saved entry of the document, as a multiset. */
  function AllEntries(s: State): multiset<Entry> {
    EntriesIn(s.order, s.folders)
  }

  /** Replacing the list of a folder not named in `names` leaves the count alone. */
  lemma {:induction false} CountInOther(p: Parser, key: string, names: seq<string>,
                                        folders: map<string, seq<Entry>>, name: string, xs: seq<Entry>)
    requires name !in names
    ensures CountIn(p, key, names, folders[name := xs]) == CountIn(p, key, names, folders)
    decreases |names|
  {
    if |names| > 0 {
      CountInOther(p, key, names[1..], folders, name, xs);
    }
  }

  /** Replacing the list of one folder changes the total count by the
      difference of that folder's own counts. */
  lemma {:induction false} CountInUpdate(p: Parser, key: string, names: seq<string>,
                                         folders: map<string, seq<Entry>>, name: string, xs: seq<Entry>)
    requires Distinct(names) && name in names
    ensures CountIn(p, key, names, folders[name := xs]) + Count(Get(folders, name), Matcher(p, key))
            == CountIn(p, key, names, folders) + Count(xs, Matcher(p, key))
    decreases |names|
  {
    var rest := names[1..];
    if names[0] == name {
      assert name !in rest;
      CountInOther(p, key, rest, folders, name, xs);
    } else {
      assert Distinct(rest);
      assert names == [names[0]] + rest;
      assert name in rest;
      CountInUpdate(p, key, rest, folders, name, xs);
    }
  }

  /** Replacing the list of a folder not named in `names` changes nothing there. */
  lemma {:induction false} EntriesInOther(names: seq<string>, folders: map<string, seq<Entry>>,
                                          name: string, xs: seq<Entry>)
    requires name !in names
    ensures EntriesIn(names, folders[name := xs]) == EntriesIn(names, folders)
    decreases |names|
  {
    if |names| > 0 {
      EntriesInOther(names[1..], folders, name, xs);
    }
  }

  /** Replacing the list of one folder changes the total multiset by the
      difference of that folder's own multisets. */
  lemma {:induction false} EntriesInUpdate(names: seq<string>, folders: map<string, seq<Entry>>,
                                           name: string, xs: seq<Entry>)
    requires Distinct(names) && name in names
    ensures EntriesIn(names, folders[name := xs]) + multiset(Get(folders, name))
            == EntriesIn(names, folders) + multiset(xs)
    decreases |names|
  {
    var rest := names[1..];
    var upd := folders[name := xs];
    if names[0] == name {
      assert name !in rest;
      EntriesInOther(rest, folders, name, xs);
    } else {
      assert Distinct(rest);
      assert names == [names[0]] + rest;
      assert name in rest;
      EntriesInUpdate(rest, folders, name, xs);
      var head := multiset(Get(folders, names[0]));
      assert Get(upd, names[0]) == Get(folders, names[0]);
      assert EntriesIn(names, upd) == head + EntriesIn(rest, upd);
      assert EntriesIn(names, folders) == head + EntriesIn(rest, folders);
      AddOnLeft(head, EntriesIn(rest, upd), multiset(Get(folders, name)), EntriesIn(rest, folders), multiset(xs));
    }
  }
}

=== FILE: import.dfy ===
/** The export button and the import check of content.js. Export writes the
    whole stored record as JSON; import stores whatever document it is given
    once three truthiness tests pass. Reading the file and `JSON.parse` are
    not modelled: the import handler receives what they produced. */
module Import {
  import opened Wrappers
  import opened Groups

  /** A JSON value as `JSON.parse` returns it (numbers are integers here). */
  datatype Json =
    | JNull
    | JBool(b: bool)
    | JNumber(n: int)
    | JString(str: string)
    | JArray(items: seq<Json>)
    | JObject(members: map<string, Json>)

  /** JavaScript truthiness of a parsed value: objects and arrays are
      truthy even when empty. */
  predicate Truthy(j: Json) {
    match j
    case JNull => false
    case JBool(b) => b
    case JNumber(n) => n != 0
    case JString(str) => str != ""
    case JArray(_) => true
    case JObject(_) => true
  }

  /** `j.key` is truthy: only an object has own members, and a missing one
      reads as `undefined`. */
  predicate MemberTruthy(j: Json, key: string) {
    j.JObject? && key in j.members && Truthy(j.members[key])
  }

  /** The schema test `json && json.folders && json.order`. */
  predicate Accepts(j: Json) {
    Truthy(j) && MemberTruthy(j, "folders") && MemberTruthy(j, "order")
  }

  /** What the file input delivered: no file, text `JSON.parse` rejects, or a
      parsed document. */
  datatype FileRead = NoFile | Unparsable | Parsed(doc: Json)

  /** The handler's outcome: nothing happens, the document is stored as the
      new state, or "Invalid file format." is shown and nothing is stored.
      The user-visible alert is not part of the outcome: a stored document
      that `render` then fails on also ends in that alert. */
  datatype ImportOutcome = Ignored | Imported(stored: Json) | Invalid

  /** The change handler of the import file input. */
  function ImportFile(f: FileRead): (r: ImportOutcome)
    ensures r == Ignored <==> f == NoFile
    ensures r.Imported? <==> f.Parsed? && Accepts(f.doc)
    ensures r.Imported? ==> r.stored == f.doc
  {
    match f
    case NoFile => Ignored
    case Unparsable => Invalid
    case Parsed(doc) => if Accepts(doc) then Imported(doc) else Invalid
  }

  /** An accepted document is an object with `folders` and `order` members,
      neither `null`, `false`, `0` nor `""`; nothing else is looked at. */
  lemma AcceptsExactly(j: Json)
    ensures Accepts(j) <==>
              j.JObject? && "folders" in j.members && "order" in j.members
              && j.members["folders"] !in {JNull, JBool(false), JNumber(0), JString("")}
              && j.members["order"] !in {JNull, JBool(false), JNumber(0), JString("")}
  {
  }

  /** An entry as `JSON.stringify` writes it. */
  function EncodeEntry(e: Entry): (j: Json)
    ensures j.JObject? && j.members.Keys == {"type", "text", "title", "url", "nurl", "ts"}
  {
    JObject(map[
      "type" := JString(e.kind), "text" := JString(e.text), "title" := JString(e.title),
      "url" := JString(e.url), "nurl" := JString(e.nurl), "ts" := JNumber(e.ts)])
  }

  function EncodeEntries(xs: seq<Entry>): (j: Json)
    ensures j.JArray? && |j.items| == |xs|
    ensures forall i :: 0 <= i < |xs| ==> j.items[i] == EncodeEntry(xs[i])
  {
    JArray(seq(|xs|, i requires 0 <= i < |xs| => EncodeEntry(xs[i])))
  }

  function EncodeNames(names: seq<string>): (j: Json)
    ensures j.JArray? && |j.items| == |names|
    ensures forall i :: 0 <= i < |names| ==> j.items[i] == JString(names[i])
  {
    JArray(seq(|names|, i requires 0 <= i < |names| => JString(names[i])))
  }

  /** The export: `JSON.stringify(state)`, as the document it serialises.
      Nothing is lost: read back as a state, it is the state exported. */
  function Export(s: State): (j: Json)
    ensures j.JObject? && j.members.Keys == {"folders", "order", "collapsed", "folderColors"}
    ensures ReadState(j) == Some(s)
  {
    var j := JObject(map[
      "folders" := JObject(map n | n in s.folders :: EncodeEntries(s.folders[n])),
      "order" := EncodeNames(s.order),
      "collapsed" := JObject(map n | n in s.collapsed :: JBool(s.collapsed[n])),
      "folderColors" := JObject(map n | n in s.folderColors :: JString(s.folderColors[n]))]);
    FoldersReadBack(s.folders);
    NamesReadBack(s.order);
    FlagsReadBack(s.collapsed);
    ColorsReadBack(s.folderColors);
    j
  }

  /** Reading a stored document of the exported shape as the state the
      panel works on; `None` for a document of any other shape. */
  function ReadState(j: Json): Option<State> {
    if j.JObject? && "folders" in j.members && "order" in j.members
       && "collapsed" in j.members && "folderColors" in j.members
    then
      match (ReadFolders(j.members["folders"]), ReadNames(j.members["order"]),
             ReadFlags(j.members["collapsed"]), ReadColors(j.members["folderColors"]))
      case (Some(f), Some(o), Some(c), Some(k)) => Some(State(f, o, c, k))
      case _ => None
    else None
  }

  function ReadEntry(j: Json): Option<Entry> {
    if j.JObject? && "type" in j.members && "text" in j.members && "title" in j.members
       && "url" in j.members && "nurl" in j.members && "ts" in j.members
       && j.members["type"].JString? && j.members["text"].JString? && j.members["title"].JString?
       && j.members["url"].JString? && j.members["nurl"].JString? && j.members["ts"].JNumber?
    then Some(Entry(j.members["type"].str, j.members["text"].str, j.members["title"].str,
                    j.members["url"].str, j.members["nurl"].str, j.members["ts"].n))
    else None
  }

  predicate ReadsAsEntries(j: Json) {
    j.JArray? && forall i :: 0 <= i < |j.items| ==> ReadEntry(j.items[i]).Some?
  }

  function ReadEntries(j: Json): Option<seq<Entry>> {
    if ReadsAsEntries(j) then Some(seq(|j.items|, i requires 0 <= i < |j.items| => ReadEntry(j.items[i]).value))
    else None
  }

  function ReadFolders(j: Json): Option<map<string, seq<Entry>>> {
    if j.JObject? && forall n :: n in j.members ==> ReadsAsEntries(j.members[n])
    then Some(map n | n in j.members :: ReadEntries(j.members[n]).value)
    else None
  }

  function ReadNames(j: Json): Option<seq<string>> {
    if j.JArray? && forall i :: 0 <= i < |j.items| ==> j.items[i].JString?
    then Some(seq(|j.items|, i requires 0 <= i < |j.items| => j.items[i].str))
    else None
  }

  function ReadFlags(j: Json): Option<map<string, bool>> {
    if j.JObject? && forall n :: n in j.members ==> j.members[n].JBool?
    then Some(map n | n in j.members :: j.members[n].b)
    else None
  }

  function ReadColors(j: Json): Option<map<string, string>> {
    if j.JObject? && forall n :: n in j.members ==> j.members[n].JString?
    then Some(map n | n in j.members :: j.members[n].str)
    else None
  }

  lemma FoldersReadBack(folders: map<string, seq<Entry>>)
    ensures ReadFolders(JObject(map n | n in folders :: EncodeEntries(folders[n]))) == Some(folders)
  {
    var m := map n | n in folders :: EncodeEntries(folders[n]);
    forall n | n in m ensures ReadsAsEntries(m[n]) && ReadEntries(m[n]) == Some(folders[n]) {
      EntriesReadBack(folders[n]);
    }
    var back := map n | n in m :: ReadEntries(m[n]).value;
    assert back == folders;
  }

  lemma EntriesReadBack(xs: seq<Entry>)
    ensures ReadsAsEntries(EncodeEntries(xs)) && ReadEntries(EncodeEntries(xs)) == Some(xs)
  {
    var j := EncodeEntries(xs);
    forall i | 0 <= i < |xs| ensures ReadEntry(j.items[i]) == Some(xs[i]) {
      assert j.items[i] == EncodeEntry(xs[i]);
    }
    assert ReadEntries(j).value == xs;
  }

  lemma NamesReadBack(names: seq<string>)
    ensures ReadNames(EncodeNames(names)) == Some(names)
  {
    assert ReadNames(EncodeNames(names)).value == names;
  }

  lemma FlagsReadBack(flags: map<string, bool>)
    ensures ReadFlags(JObject(map n | n in flags :: JBool(flags[n]))) == Some(flags)
  {
    var m := map n | n in flags :: JBool(flags[n]);
    assert (map n | n in m :: m[n].b) == flags;
  }

  lemma ColorsReadBack(colors: map<string, string>)
    ensures ReadColors(JObject(map n | n in colors :: JString(colors[n]))) == Some(colors)
  {
    var m := map n | n in colors :: JString(colors[n]);
    assert (map n | n in m :: m[n].str) == colors;
  }

  /** Exporting and importing the file again stores the exported document:
      every exported state passes the check, even one with no folders. */
  lemma ExportThenImport(s: State)
    ensures ImportFile(Parsed(Export(s))) == Imported(Export(s))
  {
    var j := Export(s);
    assert Truthy(j.members["folders"]) && Truthy(j.members["order"]);
  }

  /** The names of an exported `order` and the keys of its `folders` are
      those of the state, so a well-formed state exports a document whose
      `order` lists exactly the folder keys. */
  lemma ExportListsFolders(s: State)
    requires WellFormed(s)
    ensures forall n :: n in s.folders <==> n in Export(s).members["folders"].members
    ensures forall n :: n in s.folders <==> JString(n) in Export(s).members["order"].items
  {
    var j := Export(s);
    var items := j.members["order"].items;
    forall n | n in s.folders ensures JString(n) in items {
      var i :| 0 <= i < |s.order| && s.order[i] == n;
      assert items[i] == JString(n);
    }
    forall n | JString(n) in items ensures n in s.folders {
      var i :| 0 <= i < |items| && items[i] == JString(n);
      assert s.order[i] == n;
    }
  }

  /** The check is shallow: a document whose `order` names a folder that
      `folders` does not hold is stored, although no state exported from a
      well-formed one looks like that. So is `{"folders": 1, "order": true}`:
      it is stored before `render` runs, `render` then fails on
      `s.order.forEach`, and the user is told "Invalid file format." although
      the document has replaced the state. */
  lemma ImportIsShallow()
    ensures var doc := JObject(map["folders" := JObject(map[]), "order" := JArray([JString("x")])]);
            && ImportFile(Parsed(doc)) == Imported(doc)
            && JString("x") in doc.members["order"].items
            && "x" !in doc.members["folders"].members
    ensures ImportFile(Parsed(JObject(map["folders" := JNumber(1), "order" := JBool(true)]))).Imported?
  {
    var doc := JObject(map["folders" := JObject(map[]), "order" := JArray([JString("x")])]);
    assert Accepts(doc);
    assert JArray([JString("x")]).items[0] == JString("x");
  }

  /** Documents the check turns away. */
  lemma ImportRejects()
    ensures ImportFile(Parsed(JNull)) == Invalid
    ensures ImportFile(Parsed(JArray([]))) == Invalid
    ensures ImportFile(Parsed(JObject(map["folders" := JObject(map[])]))) == Invalid
    ensures ImportFile(Parsed(JObject(map["folders" := JObject(map[]), "order" := JString("")]))) == Invalid
    ensures ImportFile(Unparsable) == Invalid
  {
    var d := JObject(map["folders" := JObject(map[]), "order" := JString("")]);
    assert !Truthy(d.members["order"]);
  }
}

=== FILE: pages.dfy ===
/** Saving a chat page into a folder: `moveOrInsertPageByUrl` (the "Add
    chat" picker and drops on a folder header) and the external-link drop on
    a folder list. Both move an already saved page rather than save it twice. */
module Pages {
  import opened Wrappers
  import opened Seqs
  import opened Urls
  import opened Groups
  import opened Folders
  import opened View

  /** The entry a new page is saved as. */
  function NewPage(title: string, rawUrl: string, nurl: string, now: int): Entry {
    Entry(PageKind, title, title, rawUrl, nurl, now)
  }

  /** A new page saved with `nurl = normalizeUrl(rawUrl)` is compared by that key. */
  lemma NewPageKey(p: Parser, title: string, rawUrl: string, now: int)
    ensures IsPageFor(p, NewPage(title, rawUrl, Normalize(p, rawUrl), now), Normalize(p, rawUrl))
  {
  }

  lemma HoldsIffCount(p: Parser, xs: seq<Entry>, key: string)
    ensures Holds(p, xs, key) <==> Count(xs, Matcher(p, key)) > 0
  {
  }

  /** No saved page has the key exactly when the count of the key is zero. */
  lemma {:induction false} CountInZero(p: Parser, key: string, names: seq<string>, folders: map<string, seq<Entry>>)
    ensures CountIn(p, key, names, folders) == 0 <==> forall n :: n in names ==> !Holds(p, Get(folders, n), key)
    decreases |names|
  {
    if |names| > 0 {
      CountInZero(p, key, names[1..], folders);
      HoldsIffCount(p, Get(folders, names[0]), key);
      assert forall n :: n in names <==> n == names[0] || n in names[1..];
    }
  }

  /** `findSavedPage` finds nothing exactly when no page with the key is saved. */
  lemma FindNoneIffZero(p: Parser, s: State, rawUrl: string)
    ensures FindSavedPage(p, s, rawUrl).None? <==> KeyCount(p, s, Normalize(p, rawUrl)) == 0
  {
    CountInZero(p, Normalize(p, rawUrl), s.order, s.folders);
  }

  /** A location `findSavedPage` returns names an entry of an existing folder. */
  lemma FoundExists(p: Parser, s: State, rawUrl: string)
    requires FindSavedPage(p, s, rawUrl).Some?
    ensures var loc := FindSavedPage(p, s, rawUrl).value;
            loc.folder in s.folders && loc.index < |s.folders[loc.folder]|
            && IsPageFor(p, s.folders[loc.folder][loc.index], Normalize(p, rawUrl))
  {
  }

  /** The folder `f` without its entry at `i` (`splice(i, 1)`). */
  function TakeOut(s: State, f: string, i: nat): (r: State)
    requires f in s.folders && i < |s.folders[f]|
    ensures r.order == s.order && r.collapsed == s.collapsed && r.folderColors == s.folderColors
    ensures r.folders.Keys == s.folders.Keys
    ensures forall n :: n in s.folders && n != f ==> r.folders[n] == s.folders[n]
    ensures |r.folders[f]| + 1 == |s.folders[f]|
    ensures multiset(r.folders[f]) + multiset{s.folders[f][i]} == multiset(s.folders[f])
    ensures WellFormed(s) ==> WellFormed(r)
  {
    s.(folders := s.folders[f := RemoveAt(s.folders[f], i)])
  }

  /** Taking an entry out removes exactly it from the document: one entry
      less in the multiset, one less of its key, and no key made ambiguous. */
  lemma TakeOutEffect(p: Parser, s: State, f: string, i: nat, key: string)
    requires WellFormed(s) && f in s.folders && i < |s.folders[f]|
    ensures AllEntries(TakeOut(s, f, i)) + multiset{s.folders[f][i]} == AllEntries(s)
    ensures KeyCount(p, TakeOut(s, f, i), key) + (if IsPageFor(p, s.folders[f][i], key) then 1 else 0)
            == KeyCount(p, s, key)
    ensures AllUnique(p, s) ==> AllUnique(p, TakeOut(s, f, i))
  {
    TakeOutEntries(s, f, i);
    TakeOutCount(p, s, f, i, key);
    if AllUnique(p, s) {
      RemoveKeepsUnique(p, s.folders[f], i);
    }
  }

  lemma TakeOutEntries(s: State, f: string, i: nat)
    requires WellFormed(s) && f in s.folders && i < |s.folders[f]|
    ensures AllEntries(TakeOut(s, f, i)) + multiset{s.folders[f][i]} == AllEntries(s)
  {
    var xs := s.folders[f];
    var ys := RemoveAt(xs, i);
    EntriesInUpdate(s.order, s.folders, f, ys);
    Cancel(AllEntries(TakeOut(s, f, i)) + multiset{xs[i]}, AllEntries(s), multiset(ys));
  }

  lemma TakeOutCount(p: Parser, s: State, f: string, i: nat, key: string)
    requires WellFormed(s) && f in s.folders && i < |s.folders[f]|
    ensures KeyCount(p, TakeOut(s, f, i), key) + (if IsPageFor(p, s.folders[f][i], key) then 1 else 0)
            == KeyCount(p, s, key)
  {
    var xs := s.folders[f];
    var ys := RemoveAt(xs, i);
    CountInUpdate(p, key, s.order, s.folders, f, ys);
    CountRemoveAt(xs, i, Matcher(p, key));
  }

  /** `if (!dst.some(same key)) dst.splice(at, 0, item)`. */
  function PlaceIfAbsent(p: Parser, s: State, target: string, key: string, item: Entry, at: int): (r: State)
    requires target in s.folders
    ensures Holds(p, s.folders[target], key) ==> r == s
    ensures r.order == s.order && r.collapsed == s.collapsed && r.folderColors == s.folderColors
    ensures r.folders.Keys == s.folders.Keys
    ensures forall n :: n in s.folders && n != target ==> r.folders[n] == s.folders[n]
    ensures !Holds(p, s.folders[target], key) ==>
              |r.folders[target]| == |s.folders[target]| + 1
              && r.folders[target][SpliceStart(|s.folders[target]|, at)] == item
    ensures IsPageFor(p, item, key) ==> Holds(p, r.folders[target], key)
    ensures WellFormed(s) ==> WellFormed(r)
  {
    var dst := s.folders[target];
    if Holds(p, dst, key) then s
    else
      var ys := SpliceInsert(dst, at, item);
      assert ys[SpliceStart(|dst|, at)] == item;
      s.(folders := s.folders[target := ys])
  }

  /** Placing adds the item exactly when the target lacked the key: one
      more entry and one more of the key, and every folder stays free of
      duplicate keys. */
  lemma PlaceEffect(p: Parser, s: State, target: string, key: string, item: Entry, at: int)
    requires WellFormed(s) && target in s.folders && IsPageFor(p, item, key)
    ensures !Holds(p, s.folders[target], key) ==>
              AllEntries(PlaceIfAbsent(p, s, target, key, item, at)) == AllEntries(s) + multiset{item}
    ensures !Holds(p, s.folders[target], key) ==>
              KeyCount(p, PlaceIfAbsent(p, s, target, key, item, at), key) == KeyCount(p, s, key) + 1
    ensures AllUnique(p, s) ==> AllUnique(p, PlaceIfAbsent(p, s, target, key, item, at))
  {
    var dst := s.folders[target];
    if !Holds(p, dst, key) {
      var i := SpliceStart(|dst|, at);
      var ys := InsertAt(dst, i, item);
      assert PlaceIfAbsent(p, s, target, key, item, at) == s.(folders := s.folders[target := ys]);
      InsertEntries(s, target, i, item);
      InsertCount(p, s, target, i, item, key);
      if AllUnique(p, s) {
        InsertKeepsUnique(p, dst, i, item, key);
      }
    }
  }

  lemma InsertEntries(s: State, target: string, i: nat, item: Entry)
    requires WellFormed(s) && target in s.folders && i <= |s.folders[target]|
    ensures AllEntries(s.(folders := s.folders[target := InsertAt(s.folders[target], i, item)]))
            == AllEntries(s) + multiset{item}
  {
    var dst := s.folders[target];
    var ys := InsertAt(dst, i, item);
    EntriesInUpdate(s.order, s.folders, target, ys);
    Cancel(AllEntries(s.(folders := s.folders[target := ys])), AllEntries(s) + multiset{item}, multiset(dst));
  }

  lemma InsertCount(p: Parser, s: State, target: string, i: nat, item: Entry, key: string)
    requires WellFormed(s) && target in s.folders && i <= |s.folders[target]|
    requires IsPageFor(p, item, key) && !Holds(p, s.folders[target], key)
    ensures KeyCount(p, s.(folders := s.folders[target := InsertAt(s.folders[target], i, item)]), key)
            == KeyCount(p, s, key) + 1
  {
    var dst := s.folders[target];
    var ys := InsertAt(dst, i, item);
    CountInUpdate(p, key, s.order, s.folders, target, ys);
    CountInsertAt(dst, i, item, Matcher(p, key));
    HoldsIffCount(p, dst, key);
  }

  /** Inserting a page whose key the list lacks keeps the list's keys unique. */
  lemma InsertKeepsUnique(p: Parser, xs: seq<Entry>, i: nat, item: Entry, key: string)
    requires i <= |xs| && IsPageFor(p, item, key) && !Holds(p, xs, key) && UniqueKeys(p, xs)
    ensures UniqueKeys(p, InsertAt(xs, i, item))
  {
    var ys := InsertAt(xs, i, item);
    forall a, b | 0 <= a < b < |ys| && ys[a].kind == PageKind && ys[b].kind == PageKind
      ensures EntryKey(p, ys[a]) != EntryKey(p, ys[b])
    {
      if a != i && b != i {
        var a', b' := if a < i then a else a - 1, if b < i then b else b - 1;
        assert ys[a] == xs[a'] && ys[b] == xs[b'] && a' < b';
      } else if a == i {
        assert ys[b] == xs[b - 1];
        assert !IsPageFor(p, xs[b - 1], key);
      } else {
        assert ys[a] == xs[a];
        assert !IsPageFor(p, xs[a], key);
      }
    }
  }

  /** Removing an entry keeps a list's keys unique. */
  lemma RemoveKeepsUnique(p: Parser, xs: seq<Entry>, i: nat)
    requires i < |xs| && UniqueKeys(p, xs)
    ensures UniqueKeys(p, RemoveAt(xs, i))
  {
    var ys := RemoveAt(xs, i);
    forall a, b | 0 <= a < b < |ys| && ys[a].kind == PageKind && ys[b].kind == PageKind
      ensures EntryKey(p, ys[a]) != EntryKey(p, ys[b])
    {
      var a', b' := if a < i then a else a + 1, if b < i then b else b + 1;
      assert ys[a] == xs[a'] && ys[b] == xs[b'] && a' < b';
    }
  }

  /** A location naming an entry of an existing folder. */
  predicate ValidLoc(s: State, loc: Loc) {
    loc.folder in s.folders && loc.index < |s.folders[loc.folder]|
  }

  /** What `findSavedPage` returns is a valid location of a page with the key. */
  lemma FoundValid(p: Parser, s: State, rawUrl: string)
    ensures var loc := FindSavedPage(p, s, rawUrl);
            loc.Some? ==> ValidLoc(s, loc.value) && IsPageFor(p, s.folders[loc.value.folder][loc.value.index], Normalize(p, rawUrl))
  {
  }

  /** The lookup's outcome `loc` names a page with `key`. */
  predicate Located(p: Parser, s: State, key: string, loc: Option<Loc>) {
    loc.Some? ==> ValidLoc(s, loc.value) && IsPageFor(p, s.folders[loc.value.folder][loc.value.index], key)
  }

  /** Every folder other than `target` and the folder of the location found
      keeps its list. */
  predicate FramedExcept(s: State, r: State, target: string, loc: Option<Loc>) {
    forall n :: n in s.folders && n != target && (loc.None? || n != loc.value.folder)
      ==> n in r.folders && r.folders[n] == s.folders[n]
  }

  /** The decision `moveOrInsertPageByUrl` takes once the lookup is done:
      `loc` is the location found, `newEntry` the entry a new page is saved as. */
  function Save(p: Parser, s: State, target: string, key: string, loc: Option<Loc>, newEntry: Entry, now: int): (r: State)
    requires target in s.folders && Located(p, s, key, loc)
  {
    var dst := s.folders[target];
    if loc.None? then PlaceIfAbsent(p, s, target, key, newEntry, |dst|)
    else if loc.value.folder == target then s
    else
      var item := s.folders[loc.value.folder][loc.value.index];
      PlaceIfAbsent(p, TakeOut(s, loc.value.folder, loc.value.index), target, key, item.(ts := now), |dst|)
  }

  /** `forcedTitle || "Untitled"`. */
  function TitleOr(forcedTitle: string): string {
    if forcedTitle != "" then forcedTitle else "Untitled"
  }

  /** `moveOrInsertPageByUrl(target, rawUrl, forcedTitle)` with clock value `now`. */
  function MoveOrInsert(p: Parser, s: State, target: string, rawUrl: string, forcedTitle: string, now: int): (r: State)
    ensures target == "" || target !in s.folders ==> r == s
    ensures r.order == s.order && r.collapsed == s.collapsed && r.folderColors == s.folderColors
    ensures r.folders.Keys == s.folders.Keys
    ensures FramedExcept(s, r, target, FindSavedPage(p, s, rawUrl))
    ensures WellFormed(s) ==> WellFormed(r)
  {
    if target == "" || target !in s.folders then s
    else
      var key := Normalize(p, rawUrl);
      FoundValid(p, s, rawUrl);
      Save(p, s, target, key, FindSavedPage(p, s, rawUrl), NewPage(TitleOr(forcedTitle), rawUrl, key, now), now)
  }

  /** Unfolds `MoveOrInsert` on a real target. */
  lemma MoveOrInsertIsSave(p: Parser, s: State, target: string, rawUrl: string, forcedTitle: string, now: int)
    requires target != "" && target in s.folders
    ensures Located(p, s, Normalize(p, rawUrl), FindSavedPage(p, s, rawUrl))
    ensures MoveOrInsert(p, s, target, rawUrl, forcedTitle, now)
            == Save(p, s, target, Normalize(p, rawUrl), FindSavedPage(p, s, rawUrl),
                    NewPage(TitleOr(forcedTitle), rawUrl, Normalize(p, rawUrl), now), now)
    ensures IsPageFor(p, NewPage(TitleOr(forcedTitle), rawUrl, Normalize(p, rawUrl), now), Normalize(p, rawUrl))
  {
    FoundValid(p, s, rawUrl);
  }

  lemma SaveSavesKey(p: Parser, s: State, target: string, key: string, loc: Option<Loc>, newEntry: Entry, now: int)
    requires target in s.folders && Located(p, s, key, loc) && IsPageFor(p, newEntry, key)
    ensures var r := Save(p, s, target, key, loc, newEntry, now);
            var dst := s.folders[target];
            && Holds(p, r.folders[target], key)
            && (Holds(p, dst, key) ==> r.folders[target] == dst)
            && (r.folders[target] == dst || (|r.folders[target]| == |dst| + 1 && r.folders[target][..|dst|] == dst))
  {
    var dst := s.folders[target];
    if loc.None? {
      PlaceAtEnd(p, s, target, key, newEntry);
    } else if loc.value.folder != target {
      SaveIsMove(p, s, target, key, loc.value, newEntry, now);
      var item := s.folders[loc.value.folder][loc.value.index];
      PlaceAtEnd(p, TakeOut(s, loc.value.folder, loc.value.index), target, key, item.(ts := now));
    }
  }

  /** Placing a page at the end of the target: the target then holds the
      key, and either already held it and is unchanged or grew by the page. */
  lemma PlaceAtEnd(p: Parser, s: State, target: string, key: string, item: Entry)
    requires target in s.folders && IsPageFor(p, item, key)
    ensures var ys := PlaceIfAbsent(p, s, target, key, item, |s.folders[target]|).folders[target];
            var dst := s.folders[target];
            && Holds(p, ys, key)
            && (Holds(p, dst, key) ==> ys == dst)
            && (ys == dst || (|ys| == |dst| + 1 && ys[..|dst|] == dst))
  {
    var dst := s.folders[target];
    PlaceShape(p, s, target, key, item, |dst|);
    AppendIsInsert(dst, item);
    assert (dst + [item])[..|dst|] == dst;
  }

  /** After the picker the target holds the page's key; a target that held
      it already is left as it was, and otherwise the target only grows at
      its end. */
  lemma MoveOrInsertSavesKey(p: Parser, s: State, target: string, rawUrl: string, forcedTitle: string, now: int)
    requires target != "" && target in s.folders
    ensures var r := MoveOrInsert(p, s, target, rawUrl, forcedTitle, now);
            var dst := s.folders[target];
            && Holds(p, r.folders[target], Normalize(p, rawUrl))
            && (Holds(p, dst, Normalize(p, rawUrl)) ==> r.folders[target] == dst)
            && (r.folders[target] == dst || (|r.folders[target]| == |dst| + 1 && r.folders[target][..|dst|] == dst))
  {
    MoveOrInsertIsSave(p, s, target, rawUrl, forcedTitle, now);
    SaveSavesKey(p, s, target, Normalize(p, rawUrl), FindSavedPage(p, s, rawUrl),
                 NewPage(TitleOr(forcedTitle), rawUrl, Normalize(p, rawUrl), now), now);
  }

  /** What the picker saves: a page not saved anywhere becomes a new entry
      at the end of the target (titled "Untitled" without a title), the
      count of its key going from zero to one. */
  lemma MoveOrInsertCreates(p: Parser, s: State, target: string, rawUrl: string, forcedTitle: string, now: int)
    requires WellFormed(s) && target != "" && target in s.folders
    requires KeyCount(p, s, Normalize(p, rawUrl)) == 0
    ensures var r := MoveOrInsert(p, s, target, rawUrl, forcedTitle, now);
            var newEntry := NewPage(TitleOr(forcedTitle), rawUrl, Normalize(p, rawUrl), now);
            && r.folders[target] == s.folders[target] + [newEntry]
            && AllEntries(r) == AllEntries(s) + multiset{newEntry}
            && KeyCount(p, r, Normalize(p, rawUrl)) == 1
            && (AllUnique(p, s) ==> AllUnique(p, r))
  {
    var key := Normalize(p, rawUrl);
    var dst := s.folders[target];
    var newEntry := NewPage(TitleOr(forcedTitle), rawUrl, key, now);
    FindNoneIffZero(p, s, rawUrl);
    MoveOrInsertIsSave(p, s, target, rawUrl, forcedTitle, now);
    assert !Holds(p, dst, key);
    PlaceEffect(p, s, target, key, newEntry, |dst|);
  }

  /** `Save` of a page found in another folder: take it out, then place
      its re-stamped copy at the end of the target. */
  lemma SaveIsMove(p: Parser, s: State, target: string, key: string, loc: Loc, newEntry: Entry, now: int)
    requires target in s.folders && Located(p, s, key, Some(loc)) && loc.folder != target
    ensures Save(p, s, target, key, Some(loc), newEntry, now)
            == PlaceIfAbsent(p, TakeOut(s, loc.folder, loc.index), target, key,
                             s.folders[loc.folder][loc.index].(ts := now), |s.folders[target]|)
    ensures TakeOut(s, loc.folder, loc.index).folders[target] == s.folders[target]
  {
  }

  lemma SaveMoves(p: Parser, s: State, target: string, key: string, loc: Loc, newEntry: Entry, now: int)
    requires WellFormed(s) && target in s.folders && Located(p, s, key, Some(loc)) && loc.folder != target
    requires !Holds(p, s.folders[target], key)
    ensures var r := Save(p, s, target, key, Some(loc), newEntry, now);
            var item := s.folders[loc.folder][loc.index];
            && r.folders[loc.folder] == RemoveAt(s.folders[loc.folder], loc.index)
            && r.folders[target] == s.folders[target] + [item.(ts := now)]
            && (AllUnique(p, s) ==> AllUnique(p, r))
  {
    var moved := s.folders[loc.folder][loc.index].(ts := now);
    var s1 := TakeOut(s, loc.folder, loc.index);
    var dst := s.folders[target];
    SaveIsMove(p, s, target, key, loc, newEntry, now);
    PlaceShape(p, s1, target, key, moved, |dst|);
    AppendIsInsert(dst, moved);
    if AllUnique(p, s) {
      TakeOutEffect(p, s, loc.folder, loc.index, key);
      PlaceEffect(p, s1, target, key, moved, |dst|);
    }
  }

  /** What `PlaceIfAbsent` does to the lists: only the target changes, and
      only when it lacks the key, by the splice. */
  lemma PlaceShape(p: Parser, s: State, target: string, key: string, item: Entry, at: int)
    requires target in s.folders
    ensures var r := PlaceIfAbsent(p, s, target, key, item, at);
            && (forall n :: n in s.folders && n != target ==> r.folders[n] == s.folders[n])
            && r.folders[target] == if Holds(p, s.folders[target], key) then s.folders[target]
                                    else SpliceInsert(s.folders[target], at, item)
  {
  }

  lemma AppendIsInsert(xs: seq<Entry>, x: Entry)
    ensures SpliceInsert(xs, |xs|, x) == xs + [x]
  {
    assert InsertAt(xs, |xs|, x) == xs + [x];
  }

  lemma SaveMoveCounts(p: Parser, s: State, target: string, key: string, loc: Loc, newEntry: Entry, now: int)
    requires WellFormed(s) && target in s.folders && Located(p, s, key, Some(loc)) && loc.folder != target
    requires !Holds(p, s.folders[target], key)
    ensures var r := Save(p, s, target, key, Some(loc), newEntry, now);
            var item := s.folders[loc.folder][loc.index];
            && AllEntries(r) + multiset{item} == AllEntries(s) + multiset{item.(ts := now)}
            && KeyCount(p, r, key) == KeyCount(p, s, key)
  {
    SaveMoveEntries(p, s, target, key, loc, newEntry, now);
    SaveMoveCount(p, s, target, key, loc, newEntry, now);
  }

  lemma SaveMoveEntries(p: Parser, s: State, target: string, key: string, loc: Loc, newEntry: Entry, now: int)
    requires WellFormed(s) && target in s.folders && Located(p, s, key, Some(loc)) && loc.folder != target
    requires !Holds(p, s.folders[target], key)
    ensures var r := Save(p, s, target, key, Some(loc), newEntry, now);
            var item := s.folders[loc.folder][loc.index];
            AllEntries(r) + multiset{item} == AllEntries(s) + multiset{item.(ts := now)}
  {
    var item := s.folders[loc.folder][loc.index];
    var s1 := TakeOut(s, loc.folder, loc.index);
    SaveIsMove(p, s, target, key, loc, newEntry, now);
    TakeOutEntries(s, loc.folder, loc.index);
    PlaceEffect(p, s1, target, key, item.(ts := now), |s.folders[target]|);
    var r := Save(p, s, target, key, Some(loc), newEntry, now);
    Exchange(AllEntries(r), AllEntries(s), AllEntries(s1), item, item.(ts := now));
  }

  lemma SaveMoveCount(p: Parser, s: State, target: string, key: string, loc: Loc, newEntry: Entry, now: int)
    requires WellFormed(s) && target in s.folders && Located(p, s, key, Some(loc)) && loc.folder != target
    requires !Holds(p, s.folders[target], key)
    ensures KeyCount(p, Save(p, s, target, key, Some(loc), newEntry, now), key) == KeyCount(p, s, key)
  {
    var item := s.folders[loc.folder][loc.index];
    var s1 := TakeOut(s, loc.folder, loc.index);
    SaveIsMove(p, s, target, key, loc, newEntry, now);
    TakeOutCount(p, s, loc.folder, loc.index, key);
    PlaceEffect(p, s1, target, key, item.(ts := now), |s.folders[target]|);
  }

  /** A page saved first in another folder is moved, stamped with `now`, to
      the end of the target when the target lacks its key: the entry is
      exchanged for its re-stamped copy and the count of the key stays. */
  lemma MoveOrInsertMoves(p: Parser, s: State, target: string, rawUrl: string, forcedTitle: string, now: int)
    requires WellFormed(s) && target != "" && target in s.folders
    requires FindSavedPage(p, s, rawUrl).Some? && FindSavedPage(p, s, rawUrl).value.folder != target
    requires !Holds(p, s.folders[target], Normalize(p, rawUrl))
    ensures var loc := FindSavedPage(p, s, rawUrl).value;
            var item := Get(s.folders, loc.folder)[loc.index];
            var r := MoveOrInsert(p, s, target, rawUrl, forcedTitle, now);
            && r.folders[loc.folder] == RemoveAt(s.folders[loc.folder], loc.index)
            && r.folders[target] == s.folders[target] + [item.(ts := now)]
            && AllEntries(r) + multiset{item} == AllEntries(s) + multiset{item.(ts := now)}
            && KeyCount(p, r, Normalize(p, rawUrl)) == KeyCount(p, s, Normalize(p, rawUrl))
            && (AllUnique(p, s) ==> AllUnique(p, r))
  {
    MoveOrInsertIsSave(p, s, target, rawUrl, forcedTitle, now);
    SaveMoves(p, s, target, Normalize(p, rawUrl), FindSavedPage(p, s, rawUrl).value,
              NewPage(TitleOr(forcedTitle), rawUrl, Normalize(p, rawUrl), now), now);
    SaveMoveCounts(p, s, target, Normalize(p, rawUrl), FindSavedPage(p, s, rawUrl).value,
                   NewPage(TitleOr(forcedTitle), rawUrl, Normalize(p, rawUrl), now), now);
  }

  lemma SaveLoses(p: Parser, s: State, target: string, key: string, loc: Loc, newEntry: Entry, now: int)
    requires WellFormed(s) && target in s.folders && Located(p, s, key, Some(loc)) && loc.folder != target
    requires Holds(p, s.folders[target], key)
    ensures var r := Save(p, s, target, key, Some(loc), newEntry, now);
            && r.folders[loc.folder] == RemoveAt(s.folders[loc.folder], loc.index)
            && r.folders[target] == s.folders[target]
            && AllEntries(r) + multiset{s.folders[loc.folder][loc.index]} == AllEntries(s)
            && KeyCount(p, r, key) + 1 == KeyCount(p, s, key)
            && (AllUnique(p, s) ==> AllUnique(p, r))
  {
    assert TakeOut(s, loc.folder, loc.index).folders[target] == s.folders[target];
    TakeOutEffect(p, s, loc.folder, loc.index, key);
  }

  /** When the target already holds the key of a page saved first in another
      folder, that page is taken out of its folder and not put anywhere: it is
      lost, and the count of the key drops by one. */
  lemma MoveOrInsertLoses(p: Parser, s: State, target: string, rawUrl: string, forcedTitle: string, now: int)
    requires WellFormed(s) && target != "" && target in s.folders
    requires FindSavedPage(p, s, rawUrl).Some? && FindSavedPage(p, s, rawUrl).value.folder != target
    requires Holds(p, s.folders[target], Normalize(p, rawUrl))
    ensures var loc := FindSavedPage(p, s, rawUrl).value;
            var r := MoveOrInsert(p, s, target, rawUrl, forcedTitle, now);
            && r.folders[loc.folder] == RemoveAt(s.folders[loc.folder], loc.index)
            && r.folders[target] == s.folders[target]
            && AllEntries(r) + multiset{Get(s.folders, loc.folder)[loc.index]} == AllEntries(s)
            && KeyCount(p, r, Normalize(p, rawUrl)) + 1 == KeyCount(p, s, Normalize(p, rawUrl))
            && (AllUnique(p, s) ==> AllUnique(p, r))
  {
    MoveOrInsertIsSave(p, s, target, rawUrl, forcedTitle, now);
    SaveLoses(p, s, target, Normalize(p, rawUrl), FindSavedPage(p, s, rawUrl).value,
              NewPage(TitleOr(forcedTitle), rawUrl, Normalize(p, rawUrl), now), now);
  }

  /** A page already saved in the target (first) leaves the document as it is. */
  lemma MoveOrInsertAlreadyThere(p: Parser, s: State, target: string, rawUrl: string, forcedTitle: string, now: int)
    requires target != "" && target in s.folders
    requires FindSavedPage(p, s, rawUrl).Some? && FindSavedPage(p, s, rawUrl).value.folder == target
    ensures MoveOrInsert(p, s, target, rawUrl, forcedTitle, now) == s
  {
    MoveOrInsertIsSave(p, s, target, rawUrl, forcedTitle, now);
  }

  /** The external-link drop on the list of `toFolder`: `extUrl` is the
      dragged link ("" when the drag carries none), `title` the resolved
      title, marker at `slot` among candidate items with `fullIndex` values
      `fi`. The drop index is computed before a saved page is taken out. */
  function ExtDrop(p: Parser, s: State, toFolder: string, extUrl: string, title: string, now: int,
                   fi: seq<int>, slot: nat): (r: State)
    requires toFolder in s.folders && slot <= |fi|
    ensures IsCollapsed(s, toFolder) || extUrl == "" ==> r == s
    ensures r.order == s.order && r.collapsed == s.collapsed && r.folderColors == s.folderColors
    ensures r.folders.Keys == s.folders.Keys
    ensures FramedExcept(s, r, toFolder, FindSavedPage(p, s, extUrl))
    ensures WellFormed(s) ==> WellFormed(r)
    ensures !IsCollapsed(s, toFolder) && extUrl != "" ==> Holds(p, r.folders[toFolder], Normalize(p, extUrl))
  {
    if IsCollapsed(s, toFolder) || extUrl == "" then s
    else
      var key := Normalize(p, extUrl);
      var d := DropIndexFull(|s.folders[toFolder]|, fi, slot);
      var loc := FindSavedPage(p, s, extUrl);
      if loc.None? then
        NewPageKey(p, title, extUrl, now);
        PlaceIfAbsent(p, s, toFolder, key, NewPage(title, extUrl, key, now), Min(d, |s.folders[toFolder]|))
      else
        FoundExists(p, s, extUrl);
        var item := s.folders[loc.value.folder][loc.value.index];
        var s1 := TakeOut(s, loc.value.folder, loc.value.index);
        PlaceIfAbsent(p, s1, toFolder, key, item, Min(d, |s1.folders[toFolder]|))
  }

  /** An external drop of a link never saved creates one new entry with the
      resolved title, and the key count goes from zero to one. */
  lemma ExtDropCreates(p: Parser, s: State, toFolder: string, extUrl: string, title: string, now: int,
                       fi: seq<int>, slot: nat)
    requires WellFormed(s) && toFolder in s.folders && slot <= |fi|
    requires !IsCollapsed(s, toFolder) && extUrl != "" && KeyCount(p, s, Normalize(p, extUrl)) == 0
    ensures var r := ExtDrop(p, s, toFolder, extUrl, title, now, fi, slot);
            var dst := s.folders[toFolder];
            && r.folders[toFolder]
               == SpliceInsert(dst, Min(DropIndexFull(|dst|, fi, slot), |dst|), NewPage(title, extUrl, Normalize(p, extUrl), now))
            && (forall n :: n in s.folders && n != toFolder ==> r.folders[n] == s.folders[n])
            && AllEntries(r) == AllEntries(s) + multiset{NewPage(title, extUrl, Normalize(p, extUrl), now)}
            && KeyCount(p, r, Normalize(p, extUrl)) == 1
            && (AllUnique(p, s) ==> AllUnique(p, r))
  {
    var key := Normalize(p, extUrl);
    var dst := s.folders[toFolder];
    var d := DropIndexFull(|dst|, fi, slot);
    FindNoneIffZero(p, s, extUrl);
    assert !Holds(p, dst, key);
    NewPageKey(p, title, extUrl, now);
    PlaceEffect(p, s, toFolder, key, NewPage(title, extUrl, key, now), Min(d, |dst|));
  }

  /** The entry `findSavedPage` found for `rawUrl`. */
  function FoundEntry(p: Parser, s: State, rawUrl: string): (e: Entry)
    requires FindSavedPage(p, s, rawUrl).Some?
    ensures IsPageFor(p, e, Normalize(p, rawUrl))
  {
    FoundExists(p, s, rawUrl);
    var loc := FindSavedPage(p, s, rawUrl).value;
    s.folders[loc.folder][loc.index]
  }

  /** The document once the entry `findSavedPage` found is spliced out. */
  function WithoutFound(p: Parser, s: State, rawUrl: string): (r: State)
    requires FindSavedPage(p, s, rawUrl).Some?
  {
    FoundExists(p, s, rawUrl);
    var loc := FindSavedPage(p, s, rawUrl).value;
    TakeOut(s, loc.folder, loc.index)
  }

  /** An external drop of a saved link moves the saved entry object itself,
      title and timestamp kept. When the target, after the removal, lacks
      the key, the entry goes in at `min(dropIndexFull, dst.length)` of the
      shortened target, and the document keeps every entry. When the target
      still holds the key, the removal is all that happens: the entry is
      lost and the key count drops by one. */
  lemma ExtDropMoves(p: Parser, s: State, toFolder: string, extUrl: string, title: string, now: int,
                     fi: seq<int>, slot: nat)
    requires WellFormed(s) && toFolder in s.folders && slot <= |fi|
    requires !IsCollapsed(s, toFolder) && extUrl != "" && FindSavedPage(p, s, extUrl).Some?
    ensures var r := ExtDrop(p, s, toFolder, extUrl, title, now, fi, slot);
            var s1 := WithoutFound(p, s, extUrl);
            var dst1 := s1.folders[toFolder];
            !Holds(p, dst1, Normalize(p, extUrl)) ==>
              && r.folders[toFolder]
                 == SpliceInsert(dst1, Min(DropIndexFull(|s.folders[toFolder]|, fi, slot), |dst1|), FoundEntry(p, s, extUrl))
              && (forall n :: n in s.folders && n != toFolder ==> r.folders[n] == s1.folders[n])
              && AllEntries(r) == AllEntries(s)
              && KeyCount(p, r, Normalize(p, extUrl)) == KeyCount(p, s, Normalize(p, extUrl))
    ensures var r := ExtDrop(p, s, toFolder, extUrl, title, now, fi, slot);
            var s1 := WithoutFound(p, s, extUrl);
            Holds(p, s1.folders[toFolder], Normalize(p, extUrl)) ==>
              && r == s1
              && AllEntries(r) + multiset{FoundEntry(p, s, extUrl)} == AllEntries(s)
              && KeyCount(p, r, Normalize(p, extUrl)) + 1 == KeyCount(p, s, Normalize(p, extUrl))
    ensures AllUnique(p, s) ==> AllUnique(p, ExtDrop(p, s, toFolder, extUrl, title, now, fi, slot))
  {
    var key := Normalize(p, extUrl);
    var loc := FindSavedPage(p, s, extUrl).value;
    FoundExists(p, s, extUrl);
    var item := s.folders[loc.folder][loc.index];
    var s1 := TakeOut(s, loc.folder, loc.index);
    assert s1 == WithoutFound(p, s, extUrl);
    var at := Min(DropIndexFull(|s.folders[toFolder]|, fi, slot), |s1.folders[toFolder]|);
    var r := ExtDrop(p, s, toFolder, extUrl, title, now, fi, slot);
    assert r == PlaceIfAbsent(p, s1, toFolder, key, item, at);
    TakeOutEffect(p, s, loc.folder, loc.index, key);
    PlaceEffect(p, s1, toFolder, key, item, at);
  }

  /** Dropping a link that is saved first in the target folder itself
      re-positions its entry there: the entry is spliced out and back in at
      the drop index of the shortened list, provided no other entry of the
      folder has its key, which holds whenever the folder's keys are unique. */
  lemma ExtDropRepositions(p: Parser, s: State, toFolder: string, extUrl: string, title: string, now: int,
                           fi: seq<int>, slot: nat)
    requires WellFormed(s) && toFolder in s.folders && slot <= |fi|
    requires !IsCollapsed(s, toFolder) && extUrl != ""
    requires FindSavedPage(p, s, extUrl).Some? && FindSavedPage(p, s, extUrl).value.folder == toFolder
    ensures var loc := FindSavedPage(p, s, extUrl).value;
            var dst := s.folders[toFolder];
            loc.index < |dst|
            && (UniqueKeys(p, dst) ==> !Holds(p, RemoveAt(dst, loc.index), Normalize(p, extUrl)))
    ensures var loc := FindSavedPage(p, s, extUrl).value;
            var dst := s.folders[toFolder];
            var rest := RemoveAt(dst, loc.index);
            var r := ExtDrop(p, s, toFolder, extUrl, title, now, fi, slot);
            !Holds(p, rest, Normalize(p, extUrl)) ==>
              && r.folders[toFolder] == SpliceInsert(rest, Min(DropIndexFull(|dst|, fi, slot), |rest|), dst[loc.index])
              && AllEntries(r) == AllEntries(s)
  {
    var key := Normalize(p, extUrl);
    var loc := FindSavedPage(p, s, extUrl).value;
    FoundExists(p, s, extUrl);
    var dst := s.folders[toFolder];
    var rest := RemoveAt(dst, loc.index);
    assert WithoutFound(p, s, extUrl).folders[toFolder] == rest;
    ExtDropMoves(p, s, toFolder, extUrl, title, now, fi, slot);

  }

  /** The external-link drop on a folder header: ignored while a chat of
      the panel is being dragged or when the drag carries no link, otherwise
      the picker's move-or-insert into that folder. */
  function HeaderDrop(p: Parser, s: State, folder: string, chatDragActive: bool, extUrl: string,
                      title: string, now: int): (r: State)
    ensures chatDragActive || extUrl == "" ==> r == s
    ensures r.order == s.order && r.folders.Keys == s.folders.Keys
    ensures WellFormed(s) ==> WellFormed(r)
    ensures !chatDragActive && extUrl != "" && folder != "" && folder in s.folders ==>
              Holds(p, r.folders[folder], Normalize(p, extUrl))
  {
    if chatDragActive || extUrl == "" then s
    else
      HeaderDropSavesKey(p, s, folder, extUrl, title, now);
      MoveOrInsert(p, s, folder, extUrl, title, now)
  }

  lemma HeaderDropSavesKey(p: Parser, s: State, folder: string, extUrl: string, title: string, now: int)
    ensures folder != "" && folder in s.folders ==>
              Holds(p, MoveOrInsert(p, s, folder, extUrl, title, now).folders[folder], Normalize(p, extUrl))
  {
    if folder != "" && folder in s.folders {
      MoveOrInsertSavesKey(p, s, folder, extUrl, title, now);
    }
  }

  /** The delete button of the item shown at visible position `i` of folder
      `f` under the query `q`: `idxFromFiltered` finds the entry's index in
      the full array and `splice(idx, 1)` takes it out. */
  function DeleteShown(s: State, f: string, q: string, i: nat): (r: State)
    requires f in s.folders && i < |VisibleRefs(Load(s.folders[f]), q)|
    ensures r.order == s.order && r.collapsed == s.collapsed && r.folderColors == s.folderColors
    ensures r.folders.Keys == s.folders.Keys
    ensures forall g :: g in s.folders && g != f ==> r.folders[g] == s.folders[g]
    ensures |r.folders[f]| + 1 == |s.folders[f]|
    ensures WellFormed(s) ==> WellFormed(r)
  {
    var full := Load(s.folders[f]);
    IdxFromFilteredFindsEntry(s.folders[f], q, i);
    TakeOut(s, f, IdxFromFiltered(VisibleRefs(full, q), full, q, i))
  }

  /** Deleting removes exactly the clicked item: the folder loses the entry
      at the `i`-th matching position and every other entry, hidden or shown,
      keeps its order; the visible list loses its `i`-th item and nothing
      else, even when other entries show the same text, and the document
      loses that one entry. */
  lemma DeleteShownRemovesIt(s: State, f: string, q: string, i: nat)
    requires WellFormed(s) && f in s.folders && i < |VisibleRefs(Load(s.folders[f]), q)|
    ensures i < |Visible(s.folders[f], q)| && i < |Positions(s.folders[f], QueryMatcher(q))|
    ensures DeleteShown(s, f, q, i).folders[f] == RemoveAt(s.folders[f], Positions(s.folders[f], QueryMatcher(q))[i])
    ensures Visible(DeleteShown(s, f, q, i).folders[f], q) == RemoveAt(Visible(s.folders[f], q), i)
    ensures AllEntries(DeleteShown(s, f, q, i)) + multiset{Visible(s.folders[f], q)[i]} == AllEntries(s)
  {
    var list := s.folders[f];
    IdxFromFilteredFindsEntry(list, q, i);
    var k := Positions(list, QueryMatcher(q))[i];
    assert DeleteShown(s, f, q, i) == TakeOut(s, f, k);
    TakeOutEntries(s, f, k);
    VisibleIsSubsequence(list, q);
    VisibleIsSubsequence(RemoveAt(list, k), q);
    FilterRemoveAt(list, QueryMatcher(q), i);
  }
}

=== FILE: seqs.dfy ===
/** Sequence primitives behind JavaScript's `Array.prototype.splice`,
    `findIndex`, `indexOf` and `filter`, as the handlers use them. */
module Seqs {
  import opened Wrappers

  /** `xs` with the element at `i` taken out (`xs.splice(i, 1)` for an index in range). */
  function RemoveAt<T>(xs: seq<T>, i: nat): (r: seq<T>)
    requires i < |xs|
    ensures |r| == |xs| - 1
    ensures forall k :: 0 <= k < i ==> r[k] == xs[k]
    ensures forall k :: i <= k < |r| ==> r[k] == xs[k + 1]
    ensures multiset(r) + multiset{xs[i]} == multiset(xs)
  {
    assert xs == xs[..i] + [xs[i]] + xs[i + 1..];
    xs[..i] + xs[i + 1..]
  }

  /** `xs` with `x` placed before position `i` (`xs.splice(i, 0, x)` for an index in range). */
  function InsertAt<T>(xs: seq<T>, i: nat, x: T): (r: seq<T>)
    requires i <= |xs|
    ensures |r| == |xs| + 1
    ensures r[i] == x
    ensures forall k :: 0 <= k < i ==> r[k] == xs[k]
    ensures forall k :: i < k < |r| ==> r[k] == xs[k - 1]
    ensures multiset(r) == multiset(xs) + multiset{x}
  {
    assert xs == xs[..i] + xs[i..];
    xs[..i] + [x] + xs[i..]
  }

  /** Where `splice(start, …)` actually starts on an array of length `len`:
      a negative start counts back from the end (but not below 0), a start
      beyond the end is the end. */
  function SpliceStart(len: nat, start: int): (r: nat)
    ensures r <= len
    ensures 0 <= start <= len ==> r == start
    ensures start > len ==> r == len
    ensures start < 0 ==> r == if len + start < 0 then 0 else len + start
  {
    if start < 0 then (if len + start < 0 then 0 else len + start)
    else if start > len then len
    else start
  }

  /** `xs.splice(start, 0, x)` for any integer `start`. */
  function SpliceInsert<T>(xs: seq<T>, start: int, x: T): (r: seq<T>)
    ensures |r| == |xs| + 1
    ensures r[SpliceStart(|xs|, start)] == x
    ensures r[..SpliceStart(|xs|, start)] == xs[..SpliceStart(|xs|, start)]
    ensures r[SpliceStart(|xs|, start) + 1..] == xs[SpliceStart(|xs|, start)..]
    ensures multiset(r) == multiset(xs) + multiset{x}
  {
    InsertAt(xs, SpliceStart(|xs|, start), x)
  }

  /** Taking out an element and putting it back at the same place changes nothing. */
  lemma RemoveInsertSame<T>(xs: seq<T>, i: nat)
    requires i < |xs|
    ensures InsertAt(RemoveAt(xs, i), i, xs[i]) == xs
  {
  }

  /** Taking out what was just put in gives the original back. */
  lemma InsertRemoveSame<T>(xs: seq<T>, i: nat, x: T)
    requires i <= |xs|
    ensures RemoveAt(InsertAt(xs, i, x), i) == xs
  {
  }

  /** `xs.findIndex(f)`: the first index whose element satisfies `f`, or -1. */
  function FindIndex<T>(xs: seq<T>, f: T -> bool): (r: int)
    ensures -1 <= r < |xs|
    ensures r == -1 <==> forall k :: 0 <= k < |xs| ==> !f(xs[k])
    ensures 0 <= r ==> f(xs[r]) && forall k :: 0 <= k < r ==> !f(xs[k])
    decreases |xs|
  {
    if |xs| == 0 then -1
    else if f(xs[0]) then 0
    else
      var r := FindIndex(xs[1..], f);
      if r == -1 then -1 else r + 1
  }

  /** `xs.indexOf(x)`: the first index holding `x`, or -1. */
  function IndexOf<T(==)>(xs: seq<T>, x: T): (r: int)
    ensures -1 <= r < |xs|
    ensures r == -1 <==> x !in xs
    ensures 0 <= r ==> xs[r] == x && x !in xs[..r]
  {
    FindIndex(xs, y => y == x)
  }

  /** No value occurs twice. */
  predicate Distinct<T(==)>(xs: seq<T>) {
    forall i, j :: 0 <= i < j < |xs| ==> xs[i] != xs[j]
  }

  /** The number of elements satisfying `f`. */
  function Count<T>(xs: seq<T>, f: T -> bool): (n: nat)
    ensures n <= |xs|
    ensures n == 0 <==> forall k :: 0 <= k < |xs| ==> !f(xs[k])
    decreases |xs|
  {
    if |xs| == 0 then 0
    else Count(xs[..|xs| - 1], f) + (if f(xs[|xs| - 1]) then 1 else 0)
  }

  lemma {:induction false} CountAppend<T>(xs: seq<T>, ys: seq<T>, f: T -> bool)
    ensures Count(xs + ys, f) == Count(xs, f) + Count(ys, f)
    decreases |ys|
  {
    if |ys| == 0 {
      assert xs + ys == xs;
    } else {
      var ys' := ys[..|ys| - 1];
      assert (xs + ys)[..|xs + ys| - 1] == xs + ys';
      CountAppend(xs, ys', f);
    }
  }

  lemma {:induction false} CountSingle<T>(x: T, f: T -> bool)
    ensures Count([x], f) == if f(x) then 1 else 0
  {
    assert [x][..0] == [];
  }

  /** Removing an element lowers the count by that element's own contribution. */
  lemma {:induction false} CountRemoveAt<T>(xs: seq<T>, i: nat, f: T -> bool)
    requires i < |xs|
    ensures Count(RemoveAt(xs, i), f) + (if f(xs[i]) then 1 else 0) == Count(xs, f)
  {
    var a, b := xs[..i], xs[i + 1..];
    assert xs == (a + [xs[i]]) + b;
    assert RemoveAt(xs, i) == a + b;
    CountAppend(a + [xs[i]], b, f);
    CountAppend(a, [xs[i]], f);
    CountAppend(a, b, f);
    CountSingle(xs[i], f);
  }

  /** Inserting an element raises the count by that element's own contribution. */
  lemma {:induction false} CountInsertAt<T>(xs: seq<T>, i: nat, x: T, f: T -> bool)
    requires i <= |xs|
    ensures Count(InsertAt(xs, i, x), f) == Count(xs, f) + (if f(x) then 1 else 0)
  {
    InsertRemoveSame(xs, i, x);
    CountRemoveAt(InsertAt(xs, i, x), i, f);
  }

  /** The increasing list of positions whose element satisfies `f`: the
      positions `xs.filter(f)` keeps. */
  function Positions<T>(xs: seq<T>, f: T -> bool): (ps: seq<nat>)
    ensures forall k :: 0 <= k < |ps| ==> ps[k] < |xs| && f(xs[ps[k]])
    ensures forall k, l :: 0 <= k < l < |ps| ==> ps[k] < ps[l]
    ensures forall i :: 0 <= i < |xs| && f(xs[i]) ==> i in ps
    decreases |xs|
  {
    if |xs| == 0 then []
    else
      var rest := Positions(xs[..|xs| - 1], f);
      if f(xs[|xs| - 1]) then rest + [|xs| - 1] else rest
  }

  /** `xs.filter(f)`: the elements at `Positions(xs, f)`, in order. */
  function Filter<T>(xs: seq<T>, f: T -> bool): (r: seq<T>)
    ensures |r| == |Positions(xs, f)|
    ensures forall k :: 0 <= k < |r| ==> r[k] == xs[Positions(xs, f)[k]]
  {
    var ps := Positions(xs, f);
    seq(|ps|, k requires 0 <= k < |ps| => xs[ps[k]])
  }

  /** An element is kept by `Filter` exactly when it occurs in `xs` and satisfies `f`. */
  lemma FilterMembership<T>(xs: seq<T>, f: T -> bool, x: T)
    ensures x in Filter(xs, f) <==> x in xs && f(x)
  {
    var ps := Positions(xs, f);
    var r := Filter(xs, f);
    if x in xs && f(x) {
      var i :| 0 <= i < |xs| && xs[i] == x;
      var k :| 0 <= k < |ps| && ps[k] == i;
      assert r[k] == x;
    }
  }

  /** With a filter that keeps everything, nothing changes. */
  lemma FilterAll<T>(xs: seq<T>, f: T -> bool)
    requires forall k :: 0 <= k < |xs| ==> f(xs[k])
    ensures Filter(xs, f) == xs
  {
    PositionsAll(xs, f);
  }

  lemma {:induction false} PositionsAll<T>(xs: seq<T>, f: T -> bool)
    requires forall k :: 0 <= k < |xs| ==> f(xs[k])
    ensures |Positions(xs, f)| == |xs|
    ensures forall k :: 0 <= k < |xs| ==> Positions(xs, f)[k] == k
    decreases |xs|
  {
    if |xs| > 0 {
      PositionsAll(xs[..|xs| - 1], f);
    }
  }

  /** The `k`-th kept position has exactly `k` kept positions before it. */
  lemma {:induction false} PositionsCount<T>(xs: seq<T>, f: T -> bool, k: nat)
    requires k < |Positions(xs, f)|
    ensures Count(xs[..Positions(xs, f)[k]], f) == k
    decreases |xs|
  {
    var ps := Positions(xs, f);
    var init := xs[..|xs| - 1];
    var rest := Positions(init, f);
    if k < |rest| {
      assert ps[k] == rest[k];
      PositionsCount(init, f, k);
      assert init[..rest[k]] == xs[..ps[k]];
    } else {
      assert ps[k] == |xs| - 1 && k == |rest|;
      assert xs[..ps[k]] == init;
      PositionsLength(init, f);
    }
  }

  /** There are exactly as many kept positions as satisfying elements. */
  lemma {:induction false} PositionsLength<T>(xs: seq<T>, f: T -> bool)
    ensures |Positions(xs, f)| == Count(xs, f)
    decreases |xs|
  {
    if |xs| > 0 {
      PositionsLength(xs[..|xs| - 1], f);
    }
  }

  /** Positions depend only on which elements satisfy the predicate. */
  lemma {:induction false} PositionsCongruent<T, U>(xs: seq<T>, f: T -> bool, ys: seq<U>, g: U -> bool)
    requires |xs| == |ys|
    requires forall k :: 0 <= k < |xs| ==> f(xs[k]) == g(ys[k])
    ensures Positions(xs, f) == Positions(ys, g)
    decreases |xs|
  {
    if |xs| > 0 {
      PositionsCongruent(xs[..|xs| - 1], f, ys[..|ys| - 1], g);
    }
  }

  /** Multiset addition cancels. */
  lemma Cancel<T>(a: multiset<T>, b: multiset<T>, m: multiset<T>)
    requires a + m == b + m
    ensures a == b
  {
    forall x ensures a[x] == b[x] {
      assert (a + m)[x] == (b + m)[x];
    }
  }

  /** Adding the same multiset on the left of both sides of an equation. */
  lemma AddOnLeft<T>(h: multiset<T>, a: multiset<T>, m: multiset<T>, b: multiset<T>, x: multiset<T>)
    requires a + m == b + x
    ensures (h + a) + m == (h + b) + x
  {
    assert (h + a) + m == h + (a + m);
    assert (h + b) + x == h + (b + x);
  }

  /** Totals `a` before and `c` after moving `x` out of one part (`src` to
      `xs`) into another (`dst` to `ys`), with `b` the total in between: the
      move changes nothing overall. */
  lemma MoveBalances<T>(a: multiset<T>, b: multiset<T>, c: multiset<T>, src: multiset<T>, xs: multiset<T>,
                        dst: multiset<T>, ys: multiset<T>, x: multiset<T>)
    requires b + src == a + xs && c + dst == b + ys
    requires xs + x == src && ys == dst + x
    ensures c == a
  {
    assert c + dst == (b + x) + dst;
    Cancel(c, b + x, dst);
    assert (b + x) + xs == a + xs;
    Cancel(b + x, a, xs);
  }

  /** Taking `x` out of `s` and adding `y` gives `r`: `r` plus `x` is `s` plus `y`. */
  lemma Exchange<T>(r: multiset<T>, s: multiset<T>, a: multiset<T>, x: T, y: T)
    requires r == a + multiset{y} && a + multiset{x} == s
    ensures r + multiset{x} == s + multiset{y}
  {
    assert r + multiset{x} == (a + multiset{x}) + multiset{y};
  }

  /** Filtering one more element at the end appends it exactly when it is kept. */
  lemma FilterSnoc<T>(xs: seq<T>, x: T, f: T -> bool)
    ensures Filter(xs + [x], f) == Filter(xs, f) + (if f(x) then [x] else [])
  {
    var ys := xs + [x];
    assert ys[..|ys| - 1] == xs;
    var r := Filter(xs, f);
    forall k | 0 <= k < |r| ensures r[k] == ys[Positions(xs, f)[k]] {
    }
  }

  /** `filter` distributes over concatenation. */
  lemma {:induction false} FilterAppend<T>(xs: seq<T>, ys: seq<T>, f: T -> bool)
    ensures Filter(xs + ys, f) == Filter(xs, f) + Filter(ys, f)
    decreases |ys|
  {
    if |ys| == 0 {
      assert xs + ys == xs;
    } else {
      var init, x := ys[..|ys| - 1], ys[|ys| - 1];
      assert ys == init + [x];
      assert xs + ys == (xs + init) + [x];
      FilterAppend(xs, init, f);
      FilterSnoc(xs + init, x, f);
      FilterSnoc(init, x, f);
    }
  }

  /** Taking out the element at the `i`-th kept position takes out the `i`-th
      element of the filtered sequence and nothing else. */
  lemma FilterRemoveAt<T>(xs: seq<T>, f: T -> bool, i: nat)
    requires i < |Positions(xs, f)|
    ensures Filter(RemoveAt(xs, Positions(xs, f)[i]), f) == RemoveAt(Filter(xs, f), i)
  {
    var k := Positions(xs, f)[i];
    var a, x, b := xs[..k], xs[k], xs[k + 1..];
    assert f(x);
    assert |Filter(a, f)| == i by {
      PositionsCount(xs, f, i);
      PositionsLength(a, f);
    }
    assert Filter(xs, f) == Filter(a, f) + [x] + Filter(b, f) by {
      assert xs == (a + [x]) + b;
      FilterAppend(a + [x], b, f);
      FilterSnoc(a, x, f);
    }
    assert Filter(RemoveAt(xs, k), f) == Filter(a, f) + Filter(b, f) by {
      assert RemoveAt(xs, k) == a + b;
      FilterAppend(a, b, f);
    }
    RemoveMiddle(Filter(a, f), x, Filter(b, f));
  }

  lemma RemoveMiddle<T>(a: seq<T>, x: T, b: seq<T>)
    ensures RemoveAt(a + [x] + b, |a|) == a + b
  {
  }
}

=== FILE: sidebar.dfy ===
/** The chats the "Add chat" picker offers: `getSidebarChats` turns the
    sidebar's chat links into records, keeping the first link of each URL
    key, and `filterChatsBySubstring` narrows them by a typed query. The DOM
    read (which attribute or text node a title comes from, and resolving a
    relative `href` against the page origin) happens before this model: an
    anchor arrives with its resolved `href` and raw title and description. */
module Sidebar {
  import opened Seqs
  import opened Text
  import opened Urls

  /** A sidebar link: resolved `href` ("" when absent) and the raw title and
      description strings the attribute chain produced. */
  datatype Anchor = Anchor(href: string, rawTitle: string, rawDesc: string)

  /** `{title, desc, url, nurl}` as `getSidebarChats` pushes it. */
  datatype Chat = Chat(title: string, desc: string, url: string, nurl: string)

  /** The record built for one anchor, before the skip tests. */
  function ChatOf(p: Parser, a: Anchor): Chat {
    var title := Norm(CutAfterSep(a.rawTitle));
    var desc := CutAfterSep(Norm(a.rawDesc));
    Chat(title, if desc == title then "" else desc, a.href, Normalize(p, a.href))
  }

  /** The title is the raw title cut at its first separator; the description
      is the raw description cut the same way, or "" when that equals the
      title; both are whitespace-normal. */
  lemma ChatOfTexts(p: Parser, a: Anchor)
    ensures ChatOf(p, a).title == CutAfterSep(a.rawTitle)
    ensures ChatOf(p, a).desc == (if CutAfterSep(a.rawDesc) == CutAfterSep(a.rawTitle) then "" else CutAfterSep(a.rawDesc))
    ensures ChatOf(p, a).desc != ChatOf(p, a).title || ChatOf(p, a).title == ""
    ensures Normal(ChatOf(p, a).title) && Normal(ChatOf(p, a).desc)
    ensures ChatOf(p, a).nurl == Normalize(p, a.href)
  {
    var t := CutAfterSep(a.rawTitle);
    var d := CutAfterSep(a.rawDesc);
    assert Norm(t) == t && Normal(t) by {
      CutAfterSepIdempotent(a.rawTitle);
    }
    assert Normal(d) by {
      CutAfterSepIdempotent(a.rawDesc);
    }
    assert CutAfterSep(Norm(a.rawDesc)) == d by {
      NormIdempotent(a.rawDesc);
    }
    assert Normal("");
    assert ChatOf(p, a) == Chat(t, if d == t then "" else d, a.href, Normalize(p, a.href));
  }

  /** `if (!href || !title) continue;` */
  predicate Keep(c: Chat) {
    c.url != "" && c.title != ""
  }

  /** The records of all anchors, in document order. */
  function Records(p: Parser, anchors: seq<Anchor>): (cs: seq<Chat>)
    ensures |cs| == |anchors|
    ensures forall i :: 0 <= i < |anchors| ==> cs[i] == ChatOf(p, anchors[i])
  {
    seq(|anchors|, i requires 0 <= i < |anchors| => ChatOf(p, anchors[i]))
  }

  /** The reference definition of the harvest: walk the records in document
      order, skipping unusable ones and those whose key is already in `seen`. */
  function Harvest(cs: seq<Chat>, seen: set<string>): seq<Chat>
    decreases |cs|
  {
    if |cs| == 0 then []
    else if !Keep(cs[0]) || cs[0].nurl in seen then Harvest(cs[1..], seen)
    else [cs[0]] + Harvest(cs[1..], seen + {cs[0].nurl})
  }

  /** The loop of `getSidebarChats` with its `seen` set. The record of each
      anchor is built up front; building it inside the loop is the same,
      since building it has no effect. */
  method HarvestChats(p: Parser, anchors: seq<Anchor>) returns (res: seq<Chat>)
    ensures res == Harvest(Records(p, anchors), {})
    ensures |res| <= |anchors|
    ensures forall i, j :: 0 <= i < j < |res| ==> res[i].nurl != res[j].nurl
  {
    var cs := Records(p, anchors);
    res := Dedup(cs);
    HarvestShape(cs, {});
  }

  /** The dedup loop over the records. */
  method Dedup(cs: seq<Chat>) returns (res: seq<Chat>)
    ensures res == Harvest(cs, {})
  {
    var seen: set<string> := {};
    res := [];
    var i := 0;
    assert cs[0..] == cs;
    while i < |cs|
      invariant 0 <= i <= |cs|
      invariant res + Harvest(cs[i..], seen) == Harvest(cs, {})
    {
      var c := cs[i];
      HarvestStep(cs[i..], seen);
      assert cs[i..][1..] == cs[i + 1..];
      if Keep(c) && c.nurl !in seen {
        assert (res + [c]) + Harvest(cs[i + 1..], seen + {c.nurl}) == res + ([c] + Harvest(cs[i + 1..], seen + {c.nurl}));
        seen := seen + {c.nurl};
        res := res + [c];
      }
      i := i + 1;
    }
    assert cs[|cs|..] == [];
  }

  /** One step of the walk. */
  lemma HarvestStep(cs: seq<Chat>, seen: set<string>)
    requires |cs| > 0
    ensures !Keep(cs[0]) || cs[0].nurl in seen ==> Harvest(cs, seen) == Harvest(cs[1..], seen)
    ensures Keep(cs[0]) && cs[0].nurl !in seen ==> Harvest(cs, seen) == [cs[0]] + Harvest(cs[1..], seen + {cs[0].nurl})
  {
  }

  /** The harvest keeps at most one record per key, none whose key was
      already seen and none unusable, and never more records than anchors. */
  lemma {:induction false} HarvestShape(cs: seq<Chat>, seen: set<string>)
    ensures var res := Harvest(cs, seen);
            && |res| <= |cs|
            && (forall i :: 0 <= i < |res| ==> res[i].nurl !in seen && Keep(res[i]))
            && (forall i, j :: 0 <= i < j < |res| ==> res[i].nurl != res[j].nurl)
    decreases |cs|
  {
    if |cs| > 0 {
      if !Keep(cs[0]) || cs[0].nurl in seen {
        HarvestShape(cs[1..], seen);
      } else {
        HarvestShape(cs[1..], seen + {cs[0].nurl});
      }
    }
  }

  /** Record `k` is the first usable record of its key, and its key was not
      seen before the walk. */
  predicate FirstOfKey(cs: seq<Chat>, k: nat, seen: set<string>)
    requires k < |cs|
  {
    && Keep(cs[k])
    && cs[k].nurl !in seen
    && forall j :: 0 <= j < k && Keep(cs[j]) ==> cs[j].nurl != cs[k].nurl
  }

  /** First wins: the record of the first usable anchor of every key is
      harvested. */
  lemma {:induction false} HarvestKeepsFirst(cs: seq<Chat>, seen: set<string>, k: nat)
    requires k < |cs| && FirstOfKey(cs, k, seen)
    ensures cs[k] in Harvest(cs, seen)
    decreases |cs|
  {
    var seen' := if !Keep(cs[0]) || cs[0].nurl in seen then seen else seen + {cs[0].nurl};
    if k > 0 {
      var tail := cs[1..];
      assert tail[k - 1] == cs[k];
      forall j | 0 <= j < k - 1 && Keep(tail[j])
        ensures tail[j].nurl != tail[k - 1].nurl
      {
        assert tail[j] == cs[j + 1];
      }
      assert FirstOfKey(tail, k - 1, seen');
      HarvestKeepsFirst(tail, seen', k - 1);
    }
  }

  /** Only firsts: every harvested record is that of the first usable
      anchor of its key. */
  lemma {:induction false} HarvestOnlyFirsts(cs: seq<Chat>, seen: set<string>, c: Chat)
    requires c in Harvest(cs, seen)
    ensures exists k :: 0 <= k < |cs| && FirstOfKey(cs, k, seen) && c == cs[k]
    decreases |cs|
  {
    var tail := cs[1..];
    if Keep(cs[0]) && cs[0].nurl !in seen && c == cs[0] {
      assert FirstOfKey(cs, 0, seen);
    } else {
      var seen' := if !Keep(cs[0]) || cs[0].nurl in seen then seen else seen + {cs[0].nurl};
      assert c in Harvest(tail, seen');
      HarvestOnlyFirsts(tail, seen', c);
      var k :| 0 <= k < |tail| && FirstOfKey(tail, k, seen') && c == tail[k];
      assert tail[k] == cs[k + 1];
      forall j | 0 <= j < k + 1 && Keep(cs[j])
        ensures cs[j].nurl != cs[k + 1].nurl
      {
        if j > 0 {
          assert cs[j] == tail[j - 1];
        }
      }
      assert FirstOfKey(cs, k + 1, seen);
    }
  }

  /** The picker lists exactly the records of the first usable anchor of each key. */
  lemma HarvestChatsFirsts(p: Parser, anchors: seq<Anchor>, c: Chat)
    ensures c in Harvest(Records(p, anchors), {})
            <==> exists k :: 0 <= k < |anchors| && FirstOfKey(Records(p, anchors), k, {}) && c == ChatOf(p, anchors[k])
  {
    var cs := Records(p, anchors);
    if c in Harvest(cs, {}) {
      HarvestOnlyFirsts(cs, {}, c);
    }
    if exists k :: 0 <= k < |anchors| && FirstOfKey(cs, k, {}) && c == ChatOf(p, anchors[k]) {
      var k :| 0 <= k < |anchors| && FirstOfKey(cs, k, {}) && c == ChatOf(p, anchors[k]);
      HarvestKeepsFirst(cs, {}, k);
    }
  }

  /** The picker's match test: the lower-cased title or description
      contains the needle. */
  predicate ChatMatches(needle: string, c: Chat) {
    Contains(Lower(c.title), needle) || Contains(Lower(c.desc), needle)
  }

  function ChatMatcher(needle: string): Chat -> bool {
    c => ChatMatches(needle, c)
  }

  /** `filterChatsBySubstring(q)` over the harvested chats `all`. */
  function FilterChatsBySubstring(all: seq<Chat>, q: string): (r: seq<Chat>)
    ensures |r| <= |all|
    ensures forall c :: c in r <==> c in all && (Query(q) == "" || ChatMatches(Query(q), c))
    ensures Query(q) == "" ==> r == all
    ensures Query(q) != "" ==>
              var ps := Positions(all, ChatMatcher(Query(q)));
              |r| == |ps| && forall k :: 0 <= k < |r| ==> r[k] == all[ps[k]]
  {
    var needle := Query(q);
    if needle == "" then all
    else
      PositionsLength(all, ChatMatcher(needle));
      forall c ensures c in Filter(all, ChatMatcher(needle)) <==> c in all && ChatMatches(needle, c) {
        FilterMembership(all, ChatMatcher(needle), c);
      }
      Filter(all, ChatMatcher(needle))
  }

  /** Narrowing by the same query again changes nothing. */
  lemma FilterChatsIdempotent(all: seq<Chat>, q: string)
    ensures FilterChatsBySubstring(FilterChatsBySubstring(all, q), q) == FilterChatsBySubstring(all, q)
  {
    var r := FilterChatsBySubstring(all, q);
    if Query(q) != "" {
      assert forall k :: 0 <= k < |r| ==> ChatMatcher(Query(q))(r[k]) by {
        forall k | 0 <= k < |r| ensures ChatMatcher(Query(q))(r[k]) {
          assert r[k] in r;
        }
      }
      FilterAll(r, ChatMatcher(Query(q)));
    }
  }
}

=== FILE: text.dfy ===
/** String helpers with JavaScript semantics: `trim`, the `\s` class,
    `toLowerCase`, `includes`, `split(c)[0]`, and the two title cleaners
    `norm` and `cutAfterSep` of content.js. */
module Text {
  import opened Wrappers

  /** The characters JavaScript's `\s` and `String.prototype.trim` treat as
      white space (WhiteSpace and LineTerminator of ECMAScript). */
  predicate IsSpace(c: char) {
    || c in {' ', '\t', '\n', '\r', '\U{000B}', '\U{000C}', '\U{00A0}', '\U{1680}'}
    || c in {'\U{2028}', '\U{2029}', '\U{202F}', '\U{205F}', '\U{3000}', '\U{FEFF}'}
    || ('\U{2000}' <= c <= '\U{200A}')
  }

  /** The number of white-space characters `s` starts with. */
  function LeadingSpaces(s: string): (n: nat)
    ensures n <= |s|
    ensures forall k :: 0 <= k < n ==> IsSpace(s[k])
    ensures n < |s| ==> !IsSpace(s[n])
    decreases |s|
  {
    if |s| > 0 && IsSpace(s[0]) then 1 + LeadingSpaces(s[1..]) else 0
  }

  /** The length of `s` without the white space it ends with. */
  function TrailingStart(s: string): (n: nat)
    ensures n <= |s|
    ensures forall k :: n <= k < |s| ==> IsSpace(s[k])
    ensures 0 < n ==> !IsSpace(s[n - 1])
    decreases |s|
  {
    if |s| > 0 && IsSpace(s[|s| - 1]) then TrailingStart(s[..|s| - 1]) else |s|
  }

  /** `s.trimStart()`: the suffix left after dropping leading white space. */
  function TrimStart(s: string): (r: string)
    ensures |r| <= |s| && r == s[|s| - |r|..]
    ensures forall k :: 0 <= k < |s| - |r| ==> IsSpace(s[k])
    ensures |r| > 0 ==> !IsSpace(r[0])
    ensures |s| > 0 && IsSpace(s[0]) ==> |r| < |s|
  {
    s[LeadingSpaces(s)..]
  }

  /** `s.trimEnd()`: the prefix left after dropping trailing white space. */
  function TrimEnd(s: string): (r: string)
    ensures |r| <= |s| && r == s[..|r|]
    ensures forall k :: |r| <= k < |s| ==> IsSpace(s[k])
    ensures |r| > 0 ==> !IsSpace(r[|r| - 1])
  {
    s[..TrailingStart(s)]
  }

  /** `s.trim()`: the slice of `s` between its leading and trailing white space. */
  function Trim(s: string): (r: string)
    ensures |r| > 0 ==> !IsSpace(r[0]) && !IsSpace(r[|r| - 1])
    ensures r == TrimEnd(TrimStart(s))
  {
    TrimEnd(TrimStart(s))
  }

  /** ASCII `toLowerCase` of one character. */
  function LowerChar(c: char): char {
    if 'A' <= c <= 'Z' then (c as int + 32) as char else c
  }

  /** `s.toLowerCase()`, restricted to the ASCII letters. */
  function Lower(s: string): (r: string)
    ensures |r| == |s|
    ensures forall k :: 0 <= k < |s| ==> r[k] == LowerChar(s[k])
  {
    seq(|s|, k requires 0 <= k < |s| => LowerChar(s[k]))
  }

  /** A typed search query as both searches use it: trimmed, then
      lower-cased. */
  function Query(q: string): string {
    Lower(Trim(q))
  }

  /** `needle` occurs in `hay` starting at position `i`. */
  predicate OccursAt(hay: string, needle: string, i: nat) {
    i + |needle| <= |hay| && hay[i..i + |needle|] == needle
  }

  /** `hay.includes(needle)`. */
  predicate Contains(hay: string, needle: string) {
    exists i: nat | i <= |hay| :: OccursAt(hay, needle, i)
  }

  /** `s.split(c)[0]`: everything before the first `c`. */
  function TakeUntil(s: string, c: char): (r: string)
    ensures |r| <= |s| && r == s[..|r|]
    ensures c !in r
    ensures |r| < |s| ==> s[|r|] == c
    decreases |s|
  {
    if |s| == 0 then ""
    else if s[0] == c then ""
    else [s[0]] + TakeUntil(s[1..], c)
  }

  /** `s.replace(/c+$/, "")`: `s` without its trailing run of `c`. */
  function StripTrailing(s: string, c: char): (r: string)
    ensures |r| <= |s| && r == s[..|r|]
    ensures |r| > 0 ==> r[|r| - 1] != c
    ensures forall k :: |r| <= k < |s| ==> s[k] == c
    decreases |s|
  {
    if |s| > 0 && s[|s| - 1] == c then StripTrailing(s[..|s| - 1], c) else s
  }

  /** The non-white-space characters of `s`, in order. */
  function Visible(s: string): string
    decreases |s|
  {
    if |s| == 0 then ""
    else (if IsSpace(s[0]) then "" else [s[0]]) + Visible(s[1..])
  }

  lemma {:induction false} VisibleAppend(a: string, b: string)
    ensures Visible(a + b) == Visible(a) + Visible(b)
    decreases |a|
  {
    if |a| == 0 {
      assert a + b == b;
    } else {
      var h := if IsSpace(a[0]) then "" else [a[0]];
      assert (a + b)[0] == a[0];
      assert (a + b)[1..] == a[1..] + b;
      VisibleAppend(a[1..], b);
      calc {
        Visible(a + b);
        h + Visible(a[1..] + b);
        h + (Visible(a[1..]) + Visible(b));
        (h + Visible(a[1..])) + Visible(b);
        Visible(a) + Visible(b);
      }
    }
  }

  lemma {:induction false} VisibleOfSpaces(s: string)
    requires forall k :: 0 <= k < |s| ==> IsSpace(s[k])
    ensures Visible(s) == ""
    decreases |s|
  {
    if |s| > 0 {
      VisibleOfSpaces(s[1..]);
    }
  }

  /** Trimming removes only white space. */
  lemma TrimKeepsVisible(s: string)
    ensures Visible(Trim(s)) == Visible(s)
  {
    var t := TrimStart(s);
    assert s == s[..|s| - |t|] + t;
    VisibleAppend(s[..|s| - |t|], t);
    VisibleOfSpaces(s[..|s| - |t|]);
    var u := TrimEnd(t);
    assert t == u + t[|u|..];
    VisibleAppend(u, t[|u|..]);
    VisibleOfSpaces(t[|u|..]);
  }

  /** A string as `norm` leaves it: every white-space character is a plain
      space standing strictly inside the string between two non-space
      characters. */
  predicate Normal(s: string) {
    forall k :: 0 <= k < |s| && IsSpace(s[k]) ==>
      s[k] == ' ' && 0 < k < |s| - 1 && !IsSpace(s[k - 1]) && !IsSpace(s[k + 1])
  }

  /** `s.replace(/\s+/g, " ")`: every maximal run of white space becomes one space. */
  function Collapse(s: string): (r: string)
    ensures |r| <= |s|
    ensures |s| > 0 ==> |r| > 0 && (IsSpace(r[0]) <==> IsSpace(s[0]))
    ensures forall k :: 0 <= k < |r| && IsSpace(r[k]) ==> r[k] == ' '
    ensures forall k :: 0 <= k < |r| - 1 ==> !(IsSpace(r[k]) && IsSpace(r[k + 1]))
    decreases |s|
  {
    if |s| == 0 then ""
    else if IsSpace(s[0]) then
      var t := TrimStart(s);
      " " + Collapse(t)
    else [s[0]] + Collapse(s[1..])
  }

  lemma {:induction false} CollapseKeepsVisible(s: string)
    ensures Visible(Collapse(s)) == Visible(s)
    decreases |s|
  {
    if |s| > 0 {
      if IsSpace(s[0]) {
        var t := TrimStart(s);
        CollapseKeepsVisible(t);
        VisibleAppend(" ", Collapse(t));
        assert s == s[..|s| - |t|] + t;
        VisibleAppend(s[..|s| - |t|], t);
        VisibleOfSpaces(s[..|s| - |t|]);
      } else {
        CollapseKeepsVisible(s[1..]);
        VisibleAppend([s[0]], Collapse(s[1..]));
        assert s == [s[0]] + s[1..];
        VisibleAppend([s[0]], s[1..]);
      }
    }
  }

  /** A string whose white space is already single plain spaces is left
      alone by `Collapse`. */
  lemma {:induction false} CollapseFixed(s: string)
    requires forall k :: 0 <= k < |s| && IsSpace(s[k]) ==> s[k] == ' '
    requires forall k :: 0 <= k < |s| - 1 ==> !(IsSpace(s[k]) && IsSpace(s[k + 1]))
    ensures Collapse(s) == s
    decreases |s|
  {
    if |s| > 0 {
      if IsSpace(s[0]) {
        assert TrimStart(s) == s[1..] by {
          assert TrimStart(s) == TrimStart(s[1..]);
        }
        CollapseFixed(s[1..]);
      } else {
        CollapseFixed(s[1..]);
      }
    }
  }

  /** `norm(s)` of content.js: white-space runs collapsed to one space, then
      trimmed. The result is a normal string with the same non-white-space
      characters as `s`. */
  function Norm(s: string): (r: string)
    ensures Normal(r)
    ensures Visible(r) == Visible(s)
  {
    CollapseTrimShape(s);
    Trim(Collapse(s))
  }

  lemma CollapseTrimShape(s: string)
    ensures Normal(Trim(Collapse(s)))
    ensures Visible(Trim(Collapse(s))) == Visible(s)
  {
    var c := Collapse(s);
    var t := TrimStart(c);
    var r := TrimEnd(t);
    var a := |c| - |t|;
    assert r == c[a..a + |r|];
    forall k | 0 <= k < |r| && IsSpace(r[k])
      ensures r[k] == ' ' && 0 < k < |r| - 1 && !IsSpace(r[k - 1]) && !IsSpace(r[k + 1])
    {
      assert r[k] == c[a + k];
      if 0 < k { assert r[k - 1] == c[a + k - 1]; }
      if k < |r| - 1 { assert r[k + 1] == c[a + k + 1]; }
    }
    CollapseKeepsVisible(s);
    TrimKeepsVisible(c);
  }

  /** `norm` changes nothing on a normal string, so it is idempotent. */
  lemma NormOfNormal(s: string)
    requires Normal(s)
    ensures Norm(s) == s
  {
    CollapseFixed(s);
    assert TrimStart(s) == s;
    assert TrimEnd(s) == s;
  }

  lemma NormIdempotent(s: string)
    ensures Norm(Norm(s)) == Norm(s)
  {
    NormOfNormal(Norm(s));
  }

  /** The separator characters `cutAfterSep` looks for: en dash, em dash, hyphen, colon. */
  predicate IsSepChar(c: char) {
    c in {'\U{2013}', '\U{2014}', '-', ':'}
  }

  /** The regular expression `\s(?:–|—|-|:)\s` matches at `i`. */
  predicate SepAt(s: string, i: nat) {
    i + 2 < |s| && IsSpace(s[i]) && IsSepChar(s[i + 1]) && IsSpace(s[i + 2])
  }

  /** The leftmost match of the separator at or after `from`. */
  function FirstSep(s: string, from: nat): (r: Option<nat>)
    requires from <= |s|
    ensures r.Some? ==> from <= r.value && SepAt(s, r.value)
    ensures r.Some? ==> forall j: nat :: from <= j < r.value ==> !SepAt(s, j)
    ensures r.None? ==> forall j: nat :: from <= j ==> !SepAt(s, j)
    decreases |s| - from
  {
    if from == |s| then None
    else if SepAt(s, from) then Some(from)
    else FirstSep(s, from + 1)
  }

  /** `str` up to the leftmost separator match, or all of `str` when there is none. */
  function CutAtSep(str: string): (r: string)
    ensures |r| <= |str| && r == str[..|r|]
    ensures forall j: nat :: !SepAt(r, j)
    ensures (forall j: nat :: !SepAt(str, j)) ==> r == str
    ensures |r| < |str| ==> SepAt(str, |r|)
  {
    match FirstSep(str, 0)
    case Some(i) =>
      var r := str[..i];
      assert forall j :: SepAt(r, j) ==> SepAt(str, j) by {
        forall j: nat | SepAt(r, j) ensures SepAt(str, j) {
          assert r[j] == str[j] && r[j + 1] == str[j + 1] && r[j + 2] == str[j + 2];
        }
      }
      r
    case None => str
  }

  /** A cut of a normal string is normal. */
  lemma CutAtSepNormal(str: string)
    requires Normal(str)
    ensures Normal(CutAtSep(str))
  {
    var r := CutAtSep(str);
    if |r| < |str| {
      assert SepAt(str, |r|);
      forall k | 0 <= k < |r| && IsSpace(r[k])
        ensures r[k] == ' ' && 0 < k < |r| - 1 && !IsSpace(r[k - 1]) && !IsSpace(r[k + 1])
      {
        assert r[k] == str[k];
        assert IsSpace(str[k]) && !IsSpace(str[k + 1]);
        assert r[k + 1] == str[k + 1];
        assert r[k - 1] == str[k - 1];
      }
    }
  }

  /** `cutAfterSep(s)` of content.js: the normalised string up to its first
      " – " style separator. */
  function CutAfterSep(s: string): (r: string)
  {
    CutAtSep(Norm(s))
  }

  /** The cut title is a normal prefix of `norm(s)` holding no separator,
      ending exactly where the first separator of `norm(s)` begins; `norm`
      leaves it unchanged, and cutting twice is cutting once. */
  lemma CutAfterSepIdempotent(s: string)
    ensures |CutAfterSep(s)| <= |Norm(s)| && CutAfterSep(s) == Norm(s)[..|CutAfterSep(s)|]
    ensures forall j: nat :: !SepAt(CutAfterSep(s), j)
    ensures |CutAfterSep(s)| < |Norm(s)| ==> SepAt(Norm(s), |CutAfterSep(s)|)
    ensures Normal(CutAfterSep(s))
    ensures Norm(CutAfterSep(s)) == CutAfterSep(s)
    ensures CutAfterSep(CutAfterSep(s)) == CutAfterSep(s)
  {
    var r := CutAfterSep(s);
    CutAtSepNormal(Norm(s));
    NormOfNormal(r);
  }

  predicate IsHexDigit(c: char) {
    '0' <= c <= '9' || 'a' <= c <= 'f' || 'A' <= c <= 'F'
  }

  /** `isValidHex(v)` of content.js: `/^#([0-9a-fA-F]{3}|[0-9a-fA-F]{6})$/.test(v)`. */
  predicate IsValidHex(v: string) {
    && (|v| == 4 || |v| == 7)
    && v[0] == '#'
    && forall k :: 1 <= k < |v| ==> IsHexDigit(v[k])
  }
}

=== FILE: urls.dfy ===
/** `normalizeUrl` of content.js: the equality key used for every
    duplicate check. The WHATWG URL parser behind `new URL(u)` is not
    modelled; it is a parameter `p` that either yields the parsed parts or
    fails (the constructor throws). */
module Urls {
  import opened Wrappers
  import opened Text

  /** The parts of a parsed URL that the normaliser reads or writes
      (`url.protocol`, `url.hostname`, `url.port`, `url.pathname`,
      `url.search`, `url.hash`), and whether the path is opaque: a URL with
      a non-special scheme whose text after the scheme does not start with
      `/`, such as `mailto:a@b.c`, has an opaque path. */
  datatype UrlRecord = UrlRecord(
    protocol: string,
    hostname: string,
    port: string,
    pathname: string,
    search: string,
    hash: string,
    opaquePath: bool)

  /** `new URL(u)`: `None` when the constructor throws. */
  type Parser = string -> Option<UrlRecord>

  const LegacyHost: string := "chat.openai.com"
  const CurrentHost: string := "chatgpt.com"

  /** The special schemes of the WHATWG URL standard. */
  predicate IsSpecial(protocol: string) {
    protocol in {"http:", "https:", "ws:", "wss:", "ftp:", "file:"}
  }

  /** The schemes whose origin is a (scheme, host, port) tuple. */
  predicate HasTupleOrigin(protocol: string) {
    protocol in {"http:", "https:", "ws:", "wss:", "ftp:"}
  }

  /** The protocol setter switches a URL to `https:` only when its scheme is
      special, and leaves a `file:` URL with an empty host alone. */
  predicate TakesHttps(r: UrlRecord) {
    IsSpecial(r.protocol) && !(r.protocol == "file:" && r.hostname == "")
  }

  /** The hostname and pathname setters do nothing on an opaque path. */
  predicate PathSettable(r: UrlRecord) {
    TakesHttps(r) || !r.opaquePath
  }

  /** The hostname setter step: the legacy domain becomes the current one. */
  function CanonicalHost(hostname: string): string {
    if hostname == LegacyHost then CurrentHost else hostname
  }

  /** Setting the protocol to `https:` clears a port equal to its default. */
  function PortUnderHttps(port: string): string {
    if port == "443" then "" else port
  }

  /** The pathname setter step: one trailing `/` off a path longer than `/`. */
  function TrimOneSlash(path: string): string {
    if |path| > 1 && path[|path| - 1] == '/' then path[..|path| - 1] else path
  }

  /** A path that one pass of the pathname step does not bring to rest. */
  predicate EndsInDoubleSlash(path: string) {
    |path| > 2 && path[|path| - 1] == '/' && path[|path| - 2] == '/'
  }

  /** The record after the four setters of `normalizeUrl` have run. */
  function Canonical(r: UrlRecord): UrlRecord {
    if TakesHttps(r) then
      UrlRecord("https:", CanonicalHost(r.hostname), PortUnderHttps(r.port), TrimOneSlash(r.pathname), "", "", false)
    else if r.opaquePath then
      r.(search := "", hash := "")
    else
      r.(hostname := CanonicalHost(r.hostname), pathname := TrimOneSlash(r.pathname), search := "", hash := "")
  }

  /** The serialisation of a tuple origin. */
  function TupleOrigin(r: UrlRecord): string {
    r.protocol + "//" + r.hostname + (if r.port == "" then "" else ":" + r.port)
  }

  /** `url.origin`. A `blob:` URL takes the origin of the http or https URL
      its opaque path spells (a path starting with `/` has no scheme, so it
      never does); every other scheme without a tuple origin has an opaque
      origin, which serialises as `null`. */
  function Origin(p: Parser, r: UrlRecord): string {
    if HasTupleOrigin(r.protocol) then TupleOrigin(r)
    else if r.protocol == "blob:" && r.opaquePath && p(r.pathname).Some?
            && p(r.pathname).value.protocol in {"http:", "https:"} then
      TupleOrigin(p(r.pathname).value)
    else "null"
  }

  /** The `catch` branch: cut at the first `#`, then at the first `?`, then
      drop every trailing `/`. */
  function Fallback(u: string): (r: string)
    ensures |r| <= |u| && r == u[..|r|]
    ensures '#' !in r && '?' !in r
    ensures |r| > 0 ==> r[|r| - 1] != '/'
    ensures forall k :: |r| <= k < |u| && '#' !in u[..k + 1] && '?' !in u[..k + 1] ==> u[k] == '/'
  {
    FallbackCutsAtFirst(u);
    StripTrailing(TakeUntil(TakeUntil(u, '#'), '?'), '/')
  }

  /** A character before the first `c` survives `TakeUntil`. */
  lemma TakeUntilKeeps(s: string, c: char, k: nat)
    requires k < |s| && c !in s[..k + 1]
    ensures k < |TakeUntil(s, c)|
  {
  }

  /** Only `/` characters are dropped ahead of the first `#` or `?`. */
  lemma FallbackCutsAtFirst(u: string)
    ensures var r := StripTrailing(TakeUntil(TakeUntil(u, '#'), '?'), '/');
            forall k :: |r| <= k < |u| && '#' !in u[..k + 1] && '?' !in u[..k + 1] ==> u[k] == '/'
  {
    var a := TakeUntil(u, '#');
    var b := TakeUntil(a, '?');
    var r := StripTrailing(b, '/');
    forall k | |r| <= k < |u| && '#' !in u[..k + 1] && '?' !in u[..k + 1]
      ensures u[k] == '/'
    {
      TakeUntilKeeps(u, '#', k);
      assert a[..k + 1] == u[..k + 1];
      TakeUntilKeeps(a, '?', k);
      assert b[k] == a[k] == u[k];
    }
  }

  /** `normalizeUrl(u)`. */
  function Normalize(p: Parser, u: string): string {
    match p(u)
    case Some(r) => var c := Canonical(r); Origin(p, c) + c.pathname
    case None => Fallback(u)
  }

  /** The path that ends the key of a parsed URL: one trailing `/` removed
      unless the path is opaque. */
  function KeptPath(r: UrlRecord): string {
    if PathSettable(r) then TrimOneSlash(r.pathname) else r.pathname
  }

  /** On a URL with a special scheme (other than a host-less `file:`) the
      key is the `https:` origin (legacy host renamed, port 443 dropped)
      followed by the path with at most one trailing `/` removed. Any other
      URL keeps its scheme: its key is `null` followed by its path, except
      that a `blob:` URL over an http or https URL keeps that URL's origin.
      Query string and fragment never matter. */
  lemma NormalizeParsed(p: Parser, u: string, r: UrlRecord)
    requires p(u) == Some(r)
    ensures TakesHttps(r) ==>
              Normalize(p, u) == "https://" + CanonicalHost(r.hostname)
                                 + (if PortUnderHttps(r.port) == "" then "" else ":" + PortUnderHttps(r.port))
                                 + TrimOneSlash(r.pathname)
    ensures !TakesHttps(r) && r.protocol != "blob:" ==> Normalize(p, u) == "null" + KeptPath(r)
    ensures !TakesHttps(r) && r.protocol == "blob:" ==>
              Normalize(p, u) == Origin(p, r) + KeptPath(r)
    ensures KeptPath(r) == r.pathname || KeptPath(r) + "/" == r.pathname
  {
    var c := Canonical(r);
    assert Normalize(p, u) == Origin(p, c) + c.pathname;
    if TakesHttps(r) {
      var tail := if c.port == "" then "" else ":" + c.port;
      assert "https:" + "//" == "https://";
      assert Origin(p, c) == "https://" + c.hostname + tail;
    }
    var t := TrimOneSlash(r.pathname);
    if t != r.pathname {
      assert r.pathname == t + "/";
    }
  }

  /** Two links to the same chat over special schemes get the same key: the
      key ignores which special scheme it was, the query string, the
      fragment, the legacy host name, a default https port and one trailing
      slash. */
  lemma SameChatSameKey(p: Parser, u1: string, r1: UrlRecord, u2: string, r2: UrlRecord)
    requires p(u1) == Some(r1) && p(u2) == Some(r2)
    requires TakesHttps(r1) && TakesHttps(r2)
    requires CanonicalHost(r1.hostname) == CanonicalHost(r2.hostname)
    requires PortUnderHttps(r1.port) == PortUnderHttps(r2.port)
    requires r1.pathname == r2.pathname
             || (r2.pathname == r1.pathname + "/" && |r1.pathname| > 0 && r1.pathname[|r1.pathname| - 1] != '/')
    ensures Normalize(p, u1) == Normalize(p, u2)
  {
    if r1.pathname != r2.pathname {
      assert r2.pathname[..|r2.pathname| - 1] == r1.pathname;
    }
  }

  /** A link whose scheme the protocol setter refuses (other than `blob:`)
      never shares a key with a link it accepts, whatever host and path the
      two have: the first key starts with `null`, the second with `https:`. */
  lemma OpaqueOriginKeyDiffers(p: Parser, u1: string, r1: UrlRecord, u2: string, r2: UrlRecord)
    requires p(u1) == Some(r1) && p(u2) == Some(r2)
    requires !TakesHttps(r1) && r1.protocol != "blob:" && TakesHttps(r2)
    ensures Normalize(p, u1) != Normalize(p, u2)
  {
    NormalizeParsed(p, u1, r1);
    NormalizeParsed(p, u2, r2);
    assert Normalize(p, u1)[0] == 'n';
    assert Normalize(p, u2)[0] == 'h';
  }

  /** A concrete instance: `mailto:a@b.c` has an opaque path and an opaque
      origin, so its key is `nulla@b.c`. */
  lemma MailtoKey(p: Parser)
    requires p("mailto:a@b.c") == Some(UrlRecord("mailto:", "", "", "a@b.c", "", "", true))
    ensures Normalize(p, "mailto:a@b.c") == "nulla@b.c"
  {
    assert !IsSpecial("mailto:");
    assert !HasTupleOrigin("mailto:");
  }

  /** The setters are idempotent except for the path step, which is
      idempotent exactly when the path it acts on does not end in `//`. */
  lemma CanonicalTwice(r: UrlRecord)
    ensures var c := Canonical(r); var cc := Canonical(c);
            cc.protocol == c.protocol && cc.hostname == c.hostname && cc.port == c.port
            && cc.opaquePath == c.opaquePath && (c.opaquePath ==> cc.pathname == c.pathname)
    ensures Canonical(Canonical(r)) == Canonical(r)
            <==> !(PathSettable(r) && EndsInDoubleSlash(r.pathname))
  {
    var path := r.pathname;
    var t := TrimOneSlash(path);
    if TakesHttps(r) {
      assert TakesHttps(Canonical(r)) by { assert IsSpecial("https:"); }
    }
    if PathSettable(r) && EndsInDoubleSlash(path) {
      assert t == path[..|path| - 1];
      assert TrimOneSlash(t) != t by {
        assert |TrimOneSlash(t)| == |t| - 1;
      }
    }
  }

  /** Normalising the key of a parsed URL again changes nothing exactly when
      the path step applies and the path does not end in `//`: only one slash
      is removed per pass. The parser is required to read the key back as the
      canonical record, as the WHATWG parser does with a serialised URL. */
  lemma NormalizeIdempotentIff(p: Parser, u: string, r: UrlRecord)
    requires p(u) == Some(r)
    requires p(Normalize(p, u)) == Some(Canonical(r))
    ensures Normalize(p, Normalize(p, u)) == Normalize(p, u)
            <==> !(PathSettable(r) && EndsInDoubleSlash(r.pathname))
  {
    var c := Canonical(r);
    var cc := Canonical(c);
    CanonicalTwice(r);
    assert Origin(p, cc) == Origin(p, c);
    if Origin(p, cc) + cc.pathname == Origin(p, c) + c.pathname {
      assert cc.pathname == (Origin(p, cc) + cc.pathname)[|Origin(p, c)|..];
      assert cc == c;
    }
  }

  /** A concrete instance: the key of `https://chatgpt.com/c/1//` is not a
      fixed point. */
  lemma DoubleSlashNotIdempotent(p: Parser)
    requires p("https://chatgpt.com/c/1//") == Some(UrlRecord("https:", "chatgpt.com", "", "/c/1//", "", "", false))
    requires p("https://chatgpt.com/c/1/") == Some(UrlRecord("https:", "chatgpt.com", "", "/c/1/", "", "", false))
    ensures Normalize(p, "https://chatgpt.com/c/1//") == "https://chatgpt.com/c/1/"
    ensures Normalize(p, Normalize(p, "https://chatgpt.com/c/1//")) == "https://chatgpt.com/c/1"
  {
    var r1 := UrlRecord("https:", "chatgpt.com", "", "/c/1//", "", "", false);
    var r2 := UrlRecord("https:", "chatgpt.com", "", "/c/1/", "", "", false);
    var origin := "https://chatgpt.com";
    assert IsSpecial("https:") && HasTupleOrigin("https:");
    assert TrimOneSlash("/c/1//") == "/c/1/" by { assert "/c/1//"[..5] == "/c/1/"; }
    assert TrimOneSlash("/c/1/") == "/c/1" by { assert "/c/1/"[..4] == "/c/1"; }
    assert Canonical(r1) == r2;
    assert Canonical(r2) == r2.(pathname := "/c/1");
    assert TupleOrigin(r2) == origin;
    assert TupleOrigin(r2.(pathname := "/c/1")) == origin;
    assert origin + "/c/1/" == "https://chatgpt.com/c/1/";
    assert origin + "/c/1" == "https://chatgpt.com/c/1";
  }

  /** The fallback cut is idempotent. */
  lemma FallbackIdempotent(u: string)
    ensures Fallback(Fallback(u)) == Fallback(u)
  {
    var f := Fallback(u);
    assert TakeUntil(f, '#') == f by { TakeUntilAbsent(f, '#'); }
    assert TakeUntil(f, '?') == f by { TakeUntilAbsent(f, '?'); }
  }

  lemma {:induction false} TakeUntilAbsent(s: string, c: char)
    requires c !in s
    ensures TakeUntil(s, c) == s
    decreases |s|
  {
    if |s| > 0 {
      assert c !in s[1..];
      TakeUntilAbsent(s[1..], c);
    }
  }

  /** On strings the parser rejects, normalising twice is normalising once. */
  lemma NormalizeFallbackIdempotent(p: Parser, u: string)
    requires p(u) == None && p(Fallback(u)) == None
    ensures Normalize(p, Normalize(p, u)) == Normalize(p, u)
  {
    FallbackIdempotent(u);
  }

  /** A string without `#`, `?` or a trailing `/` is its own fallback key. */
  lemma FallbackKeepsClean(u: string)
    requires '#' !in u && '?' !in u && (|u| > 0 ==> u[|u| - 1] != '/')
    ensures Fallback(u) == u
  {
    TakeUntilAbsent(u, '#');
    TakeUntilAbsent(u, '?');
  }
}

=== FILE: view.dfy ===
/** The filtered view of one folder (`render`): the query, the visible
    subsequence, the back-mapping `idxFromFiltered`, and the drop-slot
    translation `getDropIndexFull`. */
module View {
  import opened Seqs
  import opened Text
  import opened Groups

  /** `it.text || it.title || ""`: the text a list item shows and is searched by. */
  function DisplayText(e: Entry): string {
    if e.text != "" then e.text else e.title
  }

  /** The render filter: the lower-cased display text contains the query. */
  predicate Matches(q: string, e: Entry) {
    Contains(Lower(DisplayText(e)), q)
  }

  function QueryMatcher(q: string): Entry -> bool {
    e => Matches(q, e)
  }

  /** `q ? list.filter(...) : list`. */
  function Visible(list: seq<Entry>, q: string): (vis: seq<Entry>)
    ensures forall e :: e in vis <==> e in list && Matches(q, e)
  {
    if q == "" then
      EmptyQueryKeepsAll(list);
      list
    else
      FilterKeepsMatches(list, q);
      Filter(list, QueryMatcher(q))
  }

  lemma FilterKeepsMatches(list: seq<Entry>, q: string)
    ensures forall e :: e in Filter(list, QueryMatcher(q)) <==> e in list && Matches(q, e)
  {
    forall e ensures e in Filter(list, QueryMatcher(q)) <==> e in list && Matches(q, e) {
      FilterMembership(list, QueryMatcher(q), e);
    }
  }

  /** Every text contains the empty query. */
  lemma EmptyQueryMatches(e: Entry)
    ensures Matches("", e)
  {
    assert OccursAt(Lower(DisplayText(e)), "", 0);
  }

  lemma EmptyQueryKeepsAll(list: seq<Entry>)
    ensures forall e :: e in list ==> Matches("", e)
  {
    forall e | e in list {
      EmptyQueryMatches(e);
    }
  }

  /** The visible list is the stable subsequence of matching entries for
      every query: for the empty query the unfiltered list is that
      subsequence too. */
  lemma VisibleIsSubsequence(list: seq<Entry>, q: string)
    ensures Visible(list, q) == Filter(list, QueryMatcher(q))
  {
    if q == "" {
      forall k | 0 <= k < |list| ensures QueryMatcher(q)(list[k]) {
        EmptyQueryMatches(list[k]);
      }
      FilterAll(list, QueryMatcher(q));
    }
  }

  /** An entry object, identified by the array slot it was loaded into:
      `x === needle` compares objects, not their contents. */
  datatype Ref = Ref(slot: nat, entry: Entry)

  /** The entry objects of a folder list as loaded from storage. */
  function Load(list: seq<Entry>): (refs: seq<Ref>)
    ensures |refs| == |list|
    ensures forall k :: 0 <= k < |list| ==> refs[k] == Ref(k, list[k])
  {
    seq(|list|, k requires 0 <= k < |list| => Ref(k, list[k]))
  }

  function RefMatcher(q: string): Ref -> bool {
    (r: Ref) => Matches(q, r.entry)
  }

  /** The visible objects, as `render` builds them. */
  function VisibleRefs(full: seq<Ref>, q: string): seq<Ref> {
    if q == "" then full else Filter(full, RefMatcher(q))
  }

  /** `idxFromFiltered(filteredArr, fullArr, q, idxInFiltered)`: the index in
      the full list of the object shown at visible position `i`. */
  function IdxFromFiltered(filtered: seq<Ref>, full: seq<Ref>, q: string, i: nat): (r: int)
    requires i < |filtered|
    ensures 0 <= r
    ensures q == "" ==> r == i
    ensures q != "" && filtered[i] in full ==> r < |full| && full[r] == filtered[i] && filtered[i] !in full[..r]
    ensures q != "" && filtered[i] !in full ==> r == i
  {
    if q == "" then i
    else
      var needle := filtered[i];
      var k := FindIndex(full, x => x == needle);
      if k == -1 then i
      else
        assert forall j :: 0 <= j < |full[..k]| ==> full[..k][j] == full[j];
        k
  }

  /** Back-mapping a visible position yields the full index of the `i`-th
      matching entry: the index holds the very entry shown, it matches the
      query, and exactly `i` matching entries precede it, whatever titles
      other entries share. */
  lemma IdxFromFilteredFindsEntry(list: seq<Entry>, q: string, i: nat)
    requires i < |VisibleRefs(Load(list), q)|
    ensures i < |Visible(list, q)| && i < |Positions(list, QueryMatcher(q))|
    ensures IdxFromFiltered(VisibleRefs(Load(list), q), Load(list), q, i) == Positions(list, QueryMatcher(q))[i]
    ensures Positions(list, QueryMatcher(q))[i] < |list|
    ensures list[Positions(list, QueryMatcher(q))[i]] == Visible(list, q)[i]
    ensures Matches(q, list[Positions(list, QueryMatcher(q))[i]])
    ensures Count(list[..Positions(list, QueryMatcher(q))[i]], QueryMatcher(q)) == i
  {
    VisibleIsSubsequence(list, q);
    var full := Load(list);
    PositionsCongruent(full, RefMatcher(q), list, QueryMatcher(q));
    var ps := Positions(list, QueryMatcher(q));
    PositionsCount(list, QueryMatcher(q), i);
    if q == "" {
      EmptyQueryPositions(list);
    } else {
      BackMapIsPosition(list, q, i);
    }
  }

  lemma EmptyQueryPositions(list: seq<Entry>)
    ensures |Positions(list, QueryMatcher(""))| == |list|
    ensures forall k :: 0 <= k < |list| ==> Positions(list, QueryMatcher(""))[k] == k
  {
    forall k | 0 <= k < |list| ensures QueryMatcher("")(list[k]) {
      EmptyQueryMatches(list[k]);
    }
    PositionsAll(list, QueryMatcher(""));
  }

  lemma BackMapIsPosition(list: seq<Entry>, q: string, i: nat)
    requires q != "" && i < |Filter(Load(list), RefMatcher(q))|
    ensures i < |Positions(list, QueryMatcher(q))|
    ensures IdxFromFiltered(VisibleRefs(Load(list), q), Load(list), q, i) == Positions(list, QueryMatcher(q))[i]
  {
    var full := Load(list);
    PositionsCongruent(full, RefMatcher(q), list, QueryMatcher(q));
    var ps := Positions(list, QueryMatcher(q));
    var vis := Filter(full, RefMatcher(q));
    assert vis[i] == full[ps[i]] == Ref(ps[i], list[ps[i]]);
    assert vis[i] in full;
    var r := IdxFromFiltered(vis, full, q, i);
    assert full[r] == Ref(r, list[r]);
  }

  /** The `fullIndex` values of the candidate items are those of a real
      view: strictly increasing positions of an array of length `n`. */
  predicate Consistent(fi: seq<int>, n: nat) {
    && (forall k :: 0 <= k < |fi| ==> 0 <= fi[k] < n)
    && (forall k, l :: 0 <= k < l < |fi| ==> fi[k] < fi[l])
  }

  function Min(a: int, b: int): int {
    if a < b then a else b
  }

  /** `getDropIndexFull`: the full-array index for the marker slot `slot`
      among the candidate items whose `fullIndex` values are `fi`, in a list
      of length `fullLen`. `slot == |fi|` is the slot after the last item;
      any other slot is the one right before the item `slot`, and the drop
      lands on that item's full index. */
  function DropIndexFull(fullLen: nat, fi: seq<int>, slot: nat): (d: int)
    requires slot <= |fi|
    ensures |fi| == 0 ==> d == fullLen
    ensures Consistent(fi, fullLen) ==> 0 <= d <= fullLen
    ensures Consistent(fi, fullLen) ==> forall k :: 0 <= k < slot ==> fi[k] < d
    ensures Consistent(fi, fullLen) ==> forall k :: slot <= k < |fi| ==> d <= fi[k]
    ensures Consistent(fi, fullLen) && 0 < slot ==> d == fi[slot - 1] + 1 || (slot < |fi| && d == fi[slot])
    ensures slot < |fi| ==> d == fi[slot]
  {
    if |fi| == 0 then fullLen
    else if slot == |fi| then Min(fi[|fi| - 1] + 1, fullLen)
    else fi[slot]
  }

  /** A slot before a candidate item lands exactly on that item, and the
      slot after the last item lands right after it, which is the end of the
      list only when that item is the list's last entry. */
  lemma DropIndexAfterLast(fullLen: nat, fi: seq<int>)
    requires Consistent(fi, fullLen) && |fi| > 0
    ensures DropIndexFull(fullLen, fi, |fi|) == fi[|fi| - 1] + 1
    ensures DropIndexFull(fullLen, fi, |fi|) == fullLen <==> fi[|fi| - 1] == fullLen - 1
  {
  }
}

=== FILE: wrappers.dfy ===
/** Small failure-carrying datatypes shared by the whole model. */
module Wrappers {

  /** A value that may be absent (JavaScript's `null` / `undefined` results). */
  datatype Option<+T> = None | Some(value: T)

  /** The outcome of an operation that can be refused with a reason. */
  datatype Result<+T, +E> = Ok(value: T) | Err(error: E)
}
